=== FILE: README.md ===
# Flight-announcement evaluation: verified model of the core logic

This project is a Dafny model of the logic inside a small web application. In the application, cabin-crew evaluators listen to a recorded in-flight announcement and score it against a rubric, once in Korean and once in English. An administrator manages the recordings and the evaluation sessions, and reads aggregated results on a dashboard.

The database tables and the file storage the application uses are modelled as plain immutable data; the live-update channel is not modelled. Every failure the backend can report is a boolean or optional parameter. The clock, the random part of an uploaded file's name, the uuid in a guest e-mail address and the id the database gives a new row are parameters too.

Modules, following the application's components:

- `Maybe`, `JsRecord`, `Text`, `Decimal` are the JavaScript behaviour the components rely on:
  - an optional value and string truthiness;
  - an object used as a dictionary, kept as an insertion-ordered list of entries, so that `Object.keys` order, `{ ...r, [k]: v }` and `r[k]` behave as in JavaScript for own keys that are not array indices and not names of `Object.prototype` members;
  - `trim` with ECMAScript's exact white-space set, `startsWith`/`endsWith` and `split`/`join`;
  - decimal rendering of numbers and `padStart(2, "0")`.
- `Scoring` is the score sheet (components/evaluation-form.tsx):
  - category and overall totals against a rubric;
  - the nested-map score update;
  - the form's two languages;
  - the submitted record and the per-language "submitted" flag.
- `ScoreOptions` is the half-point selector of one rubric item (components/score-input.tsx).
- `Dashboard` holds the per-language and per-category statistics (components/admin-dashboard.tsx).
- `Wav` is the 44-byte RIFF/WAVE header plus 16-bit little-endian samples written by the test-tone generator (components/test-audio-generator.tsx). All 32-bit and 16-bit fields are written with explicit wrap-around.
- `SessionAdmin` covers upload validation, the stored file name, the create-session guards and the active-flag toggle (components/admin-session-manager.tsx).
- `Identity` resolves a typed name to an evaluator id and decides what the evaluation page shows (components/evaluation-session.tsx).
- `Player` is the `m:ss` time display and the play/pause/seek state of the audio player (components/audio-player.tsx).

Scores are Dafny `real`, so sums and averages are exact. The application computes them in binary floating point.

Two points where the code promises less than one might expect:

- The upsert at components/evaluation-form.tsx:95-102 names no conflict target and no row id. Whether a resubmission replaces the earlier row depends on a database constraint outside the source, so `Scoring.Submit` states only what the component sends.
- `Wav.ConsistentIffMono` shows that the header's byte rate and block alignment are right only for one channel. The only caller creates a one-channel buffer, and `Wav.TestToneWav` proves its output consistent.

## Model

| member | source | states |
|---|---|---|
| JsRecord.Get | components/evaluation-form.tsx:71 | a lookup finds a value exactly when the key is one of the object's keys; a found value is stored under that key, and with distinct keys it is the value of every entry holding the key |
| JsRecord.Put | components/evaluation-form.tsx:44-50 | after a spread write the key reads the new value; every other key reads as before; an existing key keeps its place and a new key is appended; keys stay distinct |
| JsRecord.PutPut | components/evaluation-form.tsx:44-50 | writing a key twice gives exactly the object a single write of the second value gives |
| JsRecord.SumValuesPut | components/evaluation-form.tsx:44-50 | the sum of an object's values changes by new minus old value when one key is written (old counts 0 for a new key) |
| Decimal.NatToString | components/audio-player.tsx:64-66 | a number renders as at least one decimal digit with no leading zero |
| Decimal.ParseNatToString | components/audio-player.tsx:64-66 | reading a rendered number back gives the number |
| Decimal.PadStart2 | components/audio-player.tsx:66 | padding gives at least two characters: the input at the end, zeros before it |
| Text.Trim | components/evaluation-session.tsx:56 | trim returns the part of the input between the leading and trailing white space; what it cuts is white space and its ends are not |
| Text.TrimEmptyIffBlank | components/evaluation-session.tsx:56-63 | a name trims to the empty string exactly when it is all white space |
| Text.TrimIdempotent | components/evaluation-session.tsx:71-89 | trimming a trimmed name changes nothing |
| Text.Split | components/admin-session-manager.tsx:124 | split gives at least one piece and none holds the separator; the last piece is a suffix preceded by the separator unless it is the whole string |
| Text.JoinSplit | components/admin-session-manager.tsx:124 | joining the pieces of a split with the separator gives back the string |
| Scoring.ScoreOf | components/evaluation-form.tsx:71 | a missing category or item reads 0; otherwise the value read is the one stored under that item |
| Scoring.CategoryTotal | components/evaluation-form.tsx:63-74 | a category absent from the rubric totals 0 |
| Scoring.OverallTotal | components/evaluation-form.tsx:76-85 | the sum of the category totals over the rubric's categories; it is characterised by OverallTotalReadsOnlyRubricItems, OverallTotalOfEmptySheet, OverallTotalBounds and UpdateOverallTotal |
| Scoring.CategoryTotalReadsOnlyRubricItems | components/evaluation-form.tsx:63-74 | two sheets that agree on a category's rubric items have the same category total, so extra entries are ignored |
| Scoring.OverallTotalReadsOnlyRubricItems | components/evaluation-form.tsx:76-85 | two sheets that agree on every rubric item have the same overall total |
| Scoring.OverallTotalOfEmptySheet | components/evaluation-form.tsx:76-85 | the empty sheet totals 0 under any rubric |
| Scoring.EmptySheetWithinRubric | components/evaluation-form.tsx:34-35 | the initial empty sheet has every rubric score between 0 and its item maximum |
| Scoring.UpdateKeepsWithinRubric | components/evaluation-form.tsx:148-155 | entering a value between 0 and the item maximum keeps every rubric score in range |
| Scoring.CategoryTotalBounds | components/evaluation-form.tsx:63-74 | with scores in range a category total lies between 0 and the sum of its item maxima |
| Scoring.OverallTotalBounds | components/evaluation-form.tsx:76-85 | with scores in range the overall total lies between 0 and the sum of all item maxima |
| Scoring.UpdateScore | components/evaluation-form.tsx:43-51 | the written entry reads the new score; every other (category, item) entry, other categories and sibling items are unchanged |
| Scoring.UpdateLastWriteWins | components/evaluation-form.tsx:43-51 | two writes to one entry give exactly the sheet the second write alone gives |
| Scoring.UpdatesCommute | components/evaluation-form.tsx:43-51 | writes to different entries give the same scores and the same total in either order |
| Scoring.UpdateCategoryTotal | components/evaluation-form.tsx:63-74 | a write changes its category total by new minus old score for a rubric item, and not at all otherwise |
| Scoring.UpdateOverallTotal | components/evaluation-form.tsx:76-85 | a write changes the overall total by new minus old score for a rubric entry, and not at all otherwise |
| Scoring.UpdateLanguageScore | components/evaluation-form.tsx:43-61 | one language's sheet takes the write; the other language's sheet and the rest of the form are unchanged |
| Scoring.SubmissionRow | components/evaluation-form.tsx:90-102 | the row carries that language's sheet and comment and its overall total under that language's rubric |
| Scoring.SubmittedTotalBounds | components/evaluation-form.tsx:90-100 | a sheet filled through the selectors submits a total between 0 and the rubric maximum |
| Scoring.Submit | components/evaluation-form.tsx:87-127 | the row sent holds the session id, the evaluator id, the language, that language's sheet and comment, and the overall total under that language's rubric; the language's flag is raised exactly when the upsert reports no error (or it was already raised); the other flag, sheets and comments are unchanged; the busy flag ends cleared |
| Scoring.SubmittedIsSticky | components/evaluation-form.tsx:188 | once a language is submitted its button stays disabled through edits and further submits |
| ScoreOptions.Options | components/score-input.tsx:14-17 | the options are i/2 for i = 0 .. floor(2m), increasing by 0.5, each a half-point value at most m, and every such value is present |
| ScoreOptions.HalfPointMaximumCount | components/score-input.tsx:15-17 | a half-point maximum m has 2m + 1 options and is itself an option |
| ScoreOptions.ChoosingAnOptionKeepsSheetInRange | components/score-input.tsx:15-24 | any option handed to the sheet keeps every rubric score in range |
| Dashboard.Min | components/admin-dashboard.tsx:84 | the minimum is a member of the list and at most every element |
| Dashboard.Max | components/admin-dashboard.tsx:85 | the maximum is a member of the list and at least every element |
| Dashboard.AverageBetween | components/admin-dashboard.tsx:83-85 | the average of a non-empty list lies between its minimum and maximum and times the count gives the sum |
| Dashboard.OfLanguage | components/admin-dashboard.tsx:75 | an evaluation is kept exactly when it is in the input and of the language; the result is never longer than the input |
| Dashboard.OfLanguageCounts | components/admin-dashboard.tsx:75 | the filter keeps each evaluation of the language exactly as many times as it occurs in the input, and no evaluation of the other language |
| Dashboard.OfLanguageSkipsOther | components/admin-dashboard.tsx:75 | the language filter drops an evaluation of the other language wherever it stands in the list |
| Dashboard.LanguagesPartition | components/admin-dashboard.tsx:75 | the Korean and English counts add up to the number of evaluations |
| Dashboard.GetLanguageStats | components/admin-dashboard.tsx:74-88 | count is the number of that language's evaluations; all zero when none; otherwise min and max are submitted totals bounding all of them, min <= average <= max and average x count = sum |
| Dashboard.Summarize | components/admin-dashboard.tsx:81-87 | the figures of a non-empty list: count, members min and max bounding it, the average between them times count equal to the sum |
| Dashboard.OtherLanguageIgnored | components/admin-dashboard.tsx:74-88 | inserting an evaluation of the other language anywhere leaves every figure unchanged |
| Dashboard.AddKeys | components/admin-dashboard.tsx:95-98 | adding keys to the ordered set keeps it duplicate-free, keeps its prefix, and holds exactly the old members and the keys |
| Dashboard.CollectCategories | components/admin-dashboard.tsx:95-98 | the collected names are duplicate-free and are exactly the category keys of some evaluation |
| Dashboard.CategorySubtotal | components/admin-dashboard.tsx:102 | an evaluation without the category contributes 0 |
| Dashboard.SubtotalAfterUpdate | components/admin-dashboard.tsx:102 | a score entered in the form moves the dashboard's subtotal of that category by new minus previous score, and no other category's subtotal |
| Dashboard.Subtotals | components/admin-dashboard.tsx:101-104 | one subtotal per evaluation, in order |
| Dashboard.StatFor | components/admin-dashboard.tsx:106-111 | a row names its category; its min and max are subtotals and are the least and greatest of them; min <= average <= max; average x count = sum |
| Dashboard.GetCategoryStats | components/admin-dashboard.tsx:90-113 | empty without evaluations of the language; categories are distinct and exactly the keys found in that language's sheets; each row's min and max are the least and greatest of that category's subtotals, min <= average <= max and average x count = sum of subtotals |
| Dashboard.MissingCategoryCountsZero | components/admin-dashboard.tsx:101-109 | an evaluation lacking a listed category pulls that category's minimum to at most 0 |
| Wav.DecodeLE16 | components/test-audio-generator.tsx:59-60 | reading a 16-bit little-endian write back gives the value modulo 2^16 |
| Wav.DecodeLE32 | components/test-audio-generator.tsx:61 | reading a 32-bit little-endian write back gives the value modulo 2^32, so a sample rate below 2^32 reads back unchanged |
| Wav.EncodeU16At | components/test-audio-generator.tsx:59-60 | any two bytes are the 16-bit encoding of the value they hold |
| Wav.EncodeU32At | components/test-audio-generator.tsx:55-61 | any four bytes are the 32-bit encoding of the value they hold |
| Wav.DecodeInt16 | components/test-audio-generator.tsx:73 | a signed 16-bit value written and read back in two's complement is unchanged |
| Wav.Store | components/test-audio-generator.tsx:43 | a write puts its bytes at the offset and leaves every other byte as it was |
| Wav.WriteString | components/test-audio-generator.tsx:48-52 | character i lands at offset + i (its code modulo 256) and no other byte changes |
| Wav.WriteRiffDescriptor | components/test-audio-generator.tsx:54-56 | "RIFF" at 0, the RIFF size 36 + 2 x length at 4, "WAVE" at 8; bytes from 12 on untouched |
| Wav.WriteFmtChunk | components/test-audio-generator.tsx:57-64 | "fmt " at 12, then 16, 1, channels, sample rate, 2 x sample rate, 2 and 16 at 16/20/22/24/28/32/34; bytes outside 12-35 untouched |
| Wav.WriteDataHeader | components/test-audio-generator.tsx:65-66 | "data" at 36 and the data size 2 x length at 40; bytes outside 36-43 untouched |
| Wav.WriteHeader | components/test-audio-generator.tsx:54-66 | all header fields hold after the writes in order, and the sample area is untouched |
| Wav.SetInt16 | components/test-audio-generator.tsx:73 | the two bytes at the offset read back as the signed sample; no other byte changes |
| Wav.NextSampleWritten | components/test-audio-generator.tsx:71-75 | writing sample n at 44 + 2n keeps the n samples before it |
| Wav.Clamp | components/test-audio-generator.tsx:72 | the clamped value lies in [-32767, 32767] and equals the input inside that range |
| Wav.AudioBufferToWav | components/test-audio-generator.tsx:40-78 | the file has 44 + 2 x length bytes; the header fields are as listed; sample i is channel 0's clamped sample i, stored at 44 + 2i |
| Wav.ConsistentIffMono | components/test-audio-generator.tsx:58-64 | byte rate = sample rate x block align and block align = channels x 2 hold exactly when there is one channel |
| Wav.SizesAgree | components/test-audio-generator.tsx:41-66 | file length = RIFF size + 8 and RIFF size = data size + 36 |
| Wav.TestToneWav | components/test-audio-generator.tsx:15-26 | the ten-second mono tone serialises to 44 + 20 x sample rate bytes with a consistent header |
| SessionAdmin.Extension | components/admin-session-manager.tsx:124 | the extension is a dot-free suffix of the name, preceded by a dot unless it is the whole name |
| SessionAdmin.ExtensionUnique | components/admin-session-manager.tsx:124 | the three properties stated of the extension determine it: no other string has them |
| SessionAdmin.StoredName | components/admin-session-manager.tsx:124-125 | the stored name is the clock reading in decimal, a dash, the random part, a dot and the uploaded file's extension: it starts and ends as stated, has exactly their total length, and holds the random part between the dash and the dot |
| SessionAdmin.DecideUpload | components/admin-session-manager.tsx:98-125 | no file does nothing; a non-audio type is rejected before the size is looked at; an accepted file is stored under the chosen name |
| SessionAdmin.UploadAcceptedIff | components/admin-session-manager.tsx:103-120 | a file is stored exactly when its type starts with "audio/" and it has at most 50 x 1024 x 1024 bytes; it is rejected as too large exactly when it is audio and bigger |
| SessionAdmin.UploadLimitBoundary | components/admin-session-manager.tsx:113 | 52,428,800 bytes are accepted and 52,428,801 are not |
| SessionAdmin.HandleFileUpload | components/admin-session-manager.tsx:98-153 | the bucket gains exactly the chosen name when the file is accepted and the upload succeeds, and is unchanged otherwise |
| SessionAdmin.DecideCreate | components/admin-session-manager.tsx:178-201 | a missing title or audio URL rejects first, then a missing admin id; otherwise the row holds the title, the URL and the admin id as creator |
| SessionAdmin.CreateEnabledIffInsert | components/admin-session-manager.tsx:368 | the create button is enabled exactly when the handler would insert a row |
| SessionAdmin.CreateEnabled | components/admin-session-manager.tsx:368 | the button's enabled state; characterised by CreateEnabledIffInsert |
| SessionAdmin.HandleCreateSession | components/admin-session-manager.tsx:178-220 | a row is added and title and URL reset only after passing guards and a successful insert; otherwise table and form are unchanged |
| SessionAdmin.CreateDisablesButton | components/admin-session-manager.tsx:210-211 | after a successful create the table has one more row and the button is disabled |
| SessionAdmin.ToggleSessionStatus | components/admin-session-manager.tsx:222-244 | rows with the id get is_active = !current; every other row, and every row after a failed update, is unchanged |
| SessionAdmin.ToggleTwiceRestores | components/admin-session-manager.tsx:404-410 | clicking the toggle with the shown status flips it, and clicking again restores the table |
| Identity.FirstNamed | components/evaluation-session.tsx:68-73 | the position found holds the name and no earlier record does |
| Identity.Lookup | components/evaluation-session.tsx:68-78 | a fault passes its code through; otherwise the answer is the id of a record with that name with no error code, or the no-rows code when none has it |
| Identity.ResolveEvaluator | components/evaluation-session.tsx:55-111 | a blank name is rejected with nothing changed; a lookup error other than no-rows changes nothing and sets no id; a failed insert changes nothing, and for a new name aborts; the table either stays as it was or gains exactly one guest record with the trimmed name, and it grows only when that new record's id is the outcome; an id resolved without growing the table belongs to a record of that name |
| Identity.ExistingNameReused | components/evaluation-session.tsx:80-83 | an existing name resolves to the first such record's id and nothing is inserted |
| Identity.NewNameCreatesOneGuest | components/evaluation-session.tsx:84-95 | a new name adds exactly one record: the new id, the trimmed name, the guest e-mail, not an administrator; its id is used |
| Identity.GuestEmail | components/evaluation-session.tsx:86 | the address starts with "guest-", ends with "@example.com" and holds the uuid in between |
| Identity.GuestEmailInjective | components/evaluation-session.tsx:86 | different uuids give different guest addresses |
| Identity.ResolveTwiceSameId | components/evaluation-session.tsx:68-95 | resolving the same trimmed name again gives the same id and leaves the table as it was, so it grew by at most one |
| Identity.TrimmedNameResolvesAgain | components/evaluation-session.tsx:68-95 | typing again the trimmed name a resolution stored resolves to the same evaluator and inserts nothing |
| Identity.FirstNamedAppend | components/evaluation-session.tsx:68-73 | appending a record keeps an earlier match's position and is found when it is the first match |
| Identity.Render | components/evaluation-session.tsx:113-192 | while loading the skeleton; then an error or a missing session shows the error panel; then without an evaluator id the name entry with its busy flag; otherwise the evaluation form, receiving that id and the session's title and audio URL |
| Identity.FormShownIff | components/evaluation-session.tsx:113-190 | the form appears exactly when loading is over, there is no error, the session was found and an evaluator id is set |
| Identity.SessionFetched | components/evaluation-session.tsx:38-53 | loading ends either way; the row or the error message is recorded; nothing else changes |
| Identity.FailedFetchShowsNoForm | components/evaluation-session.tsx:46-53 | a failed session fetch never leads to the form, whatever the error text |
| Identity.SubmitName | components/evaluation-session.tsx:55-111 | the table is the resolution's; a blank name leaves the page as it was; otherwise the busy flag ends cleared; the id is set only on a resolution; nothing else changes |
| Identity.NewNameOpensForm | components/evaluation-session.tsx:84-97 | on a loaded page a new name with a healthy backend opens the form for the new record's id |
| Player.FormatTime | components/audio-player.tsx:63-67 | the display is digits, a colon and two digits; the digits before the colon read as t / 60 with no leading zero, and the last two as t mod 60 |
| Player.ParsePadStart2 | components/audio-player.tsx:66 | zero-padding keeps a number's decimal value |
| Player.FormatTimeReadsBack | components/audio-player.tsx:63-66 | the seconds field is two digits below 60 and minutes x 60 + seconds = t |
| Player.FormatTimeInjective | components/audio-player.tsx:63-67 | different times display differently |
| Player.Step | components/audio-player.tsx:19-61 | toggle flips playing, on the element too, only with an element; ended stops; time-update and loaded-metadata copy the element's position and duration; seek and reset set the position, on the element too, to the target or 0; volume always records the level; each handler changes only its own field, and without an element nothing else changes |
| Player.StepKeepsInSync | components/audio-player.tsx:19-28 | every handler keeps the play button in step with the element |
| Player.ToggleTwice | components/audio-player.tsx:19-28 | toggling twice restores the state |
| Player.RunKeepsInSync | components/audio-player.tsx:19-77 | any sequence of handlers keeps the play button in step with the element |
| Player.NoElementNeverPlays | components/audio-player.tsx:19-28 | without an audio element the player never shows as playing |

## Left out

- Backend I/O is not modelled: the hosted database and storage client (lib/supabase.ts is not part of this model), the queries, inserts, upserts and storage listing, and the dashboard's live-update subscription. Tables and the bucket are sequences; every backend failure is a parameter.
- De-duplication of evaluations by (session, evaluator, language) is not modelled, because the upsert names no conflict target and the schema that would supply one is not part of this model.
- Rubric contents (lib/evaluation-criteria) are not part of this model. The rubric is a parameter, and the "100" shown as the overall maximum is not assumed.
- Fetching the admin id, listing and deleting files (`handleDeleteFile` with its confirmation dialog) and ordering sessions by creation date are backend calls with no logic of their own, so they are left out.
- `formatFileSize` is left out because it uses floating-point logarithms.
- The sine synthesis, the AudioContext and the blob download of the test tone are left out: they are floating-point and DOM work.
- Wav.Clamp: samples are integers already scaled to the 16-bit range. The float-to-int16 conversion of `sample * 0x7fff` is left out.
- Player.FormatTime: covers whole seconds only. Fractional seconds and `NaN` durations are left out.
- Player.Step: the volume slider's one-element array is modelled as one number. A rejected `play()` promise is not modelled.
- `Date.now()`, `Math.random().toString(36)` and `uuidv4()` are parameters, not computed.
- Dashboard.GetLanguageStats: averages are exact reals. JavaScript's floating-point rounding of sums and quotients is left out.
- Scoring.UpdatesCommute: equal scores and totals in either order, not equal objects. A key that is new to the sheet is appended, so the two orders can differ in key order.
- Interleaving of handlers is not modelled: every handler runs to completion before the next event, although the application can be interrupted at each `await`. Two consequences are outside the model:
  - The name field's Enter key (components/evaluation-session.tsx:156-160) is not gated by `isNameSubmitting`. Two overlapping submissions of a new name can both see "no rows" and insert two guest records. `Identity.ResolveTwiceSameId` and `Identity.TrimmedNameResolvesAgain` hold only for one submission after another.
  - The create button (components/admin-session-manager.tsx:365-369) stays enabled while the insert is awaited (:196-201), so a double click can insert the same session twice. `SessionAdmin.CreateDisablesButton` describes the state after the handler has finished.
- JsRecord.Put: a new key is appended, which is JavaScript's order only for keys that are not array indices. JavaScript lists keys such as "1" or "10" first, in numeric order. Lookups, sums and totals do not depend on key order; only `Object.keys` order would differ.
- JsRecord.Get: only own keys are modelled. JavaScript's `r[k]` also reads members inherited from `Object.prototype`. On the empty initial sheet `{}` the application's `scores[category]?.[item] || 0` stops at `undefined` for an ordinary category, whatever the item is called; only a category named like a prototype member (`constructor`, `toString`, ...) reads an inherited member there, and its items then read that member's properties, which may be numbers (`{}.constructor.length` is 1) or strings. An item named like a prototype member is read wrongly only once its category already has an entry. The model reads 0 in all these cases, and `Scoring.OverallTotalOfEmptySheet` holds only for rubrics whose category names are not prototype member names.
- The `uploading` flag of `handleFileUpload` (components/admin-session-manager.tsx:122, 151), which disables the file input while an upload runs, is left out; under run-to-completion it is always false between events.
- Identity.Lookup: the query uses `.limit(1)` with no `.order()` (components/evaluation-session.tsx:68-73), so the database may return any of several same-named records. The model always takes the first in table order, and `Identity.ExistingNameReused`'s "first such record" depends on that choice.
- The connection-probe component, the static pages, toasts, charts, colours and all JSX are presentation and are left out.

=== FILE: dashboard.dfy ===
/** The results dashboard: count, average, minimum and maximum of the
    submitted totals per language, and the same figures per rubric category
    computed from the stored score sheets. */
module Dashboard {
  import opened Maybe
  import opened JsRecord
  import opened Scoring

  /** One stored evaluation as the dashboard reads it. */
  datatype EvaluationData = EvaluationData(
    id: string,
    evaluatorName: string,
    language: Language,
    scores: ScoreMap,
    totalScore: real,
    comments: Option<string>,
    submittedAt: string)

  datatype LanguageStats = LanguageStats(average: real, min: real, max: real, count: nat)

  datatype CategoryStat = CategoryStat(category: string, average: real, min: real, max: real)

  // ---------------------------------------------------------------------
  // Numeric helpers over a list of scores

  /** `xs.reduce((a, b) => a + b, 0)`. */
  function Sum(xs: seq<real>): real {
    if xs == [] then 0.0 else xs[0] + Sum(xs[1..])
  }

  /** `Math.min(...xs)` on a non-empty list. */
  function Min(xs: seq<real>): (m: real)
    requires |xs| > 0
    ensures m in xs
    ensures forall i :: 0 <= i < |xs| ==> m <= xs[i]
  {
    if |xs| == 1 then xs[0]
    else
      var rest := Min(xs[1..]);
      assert forall i :: 1 <= i < |xs| ==> xs[i] == xs[1..][i - 1];
      if xs[0] <= rest then xs[0] else rest
  }

  /** `Math.max(...xs)` on a non-empty list. */
  function Max(xs: seq<real>): (m: real)
    requires |xs| > 0
    ensures m in xs
    ensures forall i :: 0 <= i < |xs| ==> xs[i] <= m
  {
    if |xs| == 1 then xs[0]
    else
      var rest := Max(xs[1..]);
      assert forall i :: 1 <= i < |xs| ==> xs[i] == xs[1..][i - 1];
      if xs[0] >= rest then xs[0] else rest
  }

  /** A sum of `n` values lies between `n` times their least and `n` times
      their greatest element. */
  lemma {:induction false} SumBetween(xs: seq<real>, lo: real, hi: real)
    requires forall i :: 0 <= i < |xs| ==> lo <= xs[i] <= hi
    ensures |xs| as real * lo <= Sum(xs) <= |xs| as real * hi
    decreases |xs|
  {
    if xs != [] {
      assert forall i :: 0 <= i < |xs[1..]| ==> xs[1..][i] == xs[i + 1];
      SumBetween(xs[1..], lo, hi);
    }
  }

  /** Dividing by a positive count preserves bounds that hold for the
      count's multiples, and multiplying back restores the dividend. */
  lemma DivideByCount(total: real, n: real, lo: real, hi: real)
    requires n > 0.0
    requires n * lo <= total <= n * hi
    ensures lo <= total / n <= hi
    ensures (total / n) * n == total
  {
    var q := total / n;
    assert q * n == total;
    assert n * (q - lo) == total - n * lo;
    assert n * (hi - q) == n * hi - total;
    PositiveProduct(n, q - lo);
    PositiveProduct(n, hi - q);
  }

  lemma PositiveProduct(n: real, x: real)
    requires n > 0.0 && n * x >= 0.0
    ensures x >= 0.0
  {
  }

  /** `average` is the mean of `count` values summing to `total`. */
  predicate IsMean(average: real, count: nat, total: real) {
    average * count as real == total
  }

  /** The mean of a non-empty list lies within any bounds of its elements,
      and times the length it gives back the sum. */
  lemma MeanWithin(xs: seq<real>, lo: real, hi: real)
    requires |xs| > 0
    requires forall i :: 0 <= i < |xs| ==> lo <= xs[i] <= hi
    ensures lo <= Sum(xs) / |xs| as real <= hi
    ensures IsMean(Sum(xs) / |xs| as real, |xs|, Sum(xs))
  {
    SumBetween(xs, lo, hi);
    DivideByCount(Sum(xs), |xs| as real, lo, hi);
  }

  /** The mean of a non-empty list lies between its minimum and maximum. */
  lemma AverageBetween(xs: seq<real>)
    requires |xs| > 0
    ensures Min(xs) <= Sum(xs) / |xs| as real <= Max(xs)
    ensures IsMean(Sum(xs) / |xs| as real, |xs|, Sum(xs))
  {
    MeanWithin(xs, Min(xs), Max(xs));
  }

  // ---------------------------------------------------------------------
  // Filtering by language

  /** `evaluations.filter((e) => e.language === language)`. */
  function OfLanguage(evals: seq<EvaluationData>, lang: Language): (r: seq<EvaluationData>)
    ensures |r| <= |evals|
    ensures forall e :: e in r <==> e in evals && e.language == lang
  {
    if evals == [] then []
    else (if evals[0].language == lang then [evals[0]] else []) + OfLanguage(evals[1..], lang)
  }

  /** The filter keeps every evaluation of the language as often as it
      occurs, and nothing else. */
  lemma {:induction false} OfLanguageCounts(evals: seq<EvaluationData>, lang: Language)
    ensures forall e :: multiset(OfLanguage(evals, lang))[e] ==
                          if e.language == lang then multiset(evals)[e] else 0
    decreases |evals|
  {
    if evals != [] {
      OfLanguageCounts(evals[1..], lang);
      assert evals == [evals[0]] + evals[1..];
      assert multiset(evals) == multiset{evals[0]} + multiset(evals[1..]);
    }
  }

  /** Filtering distributes over concatenation. */
  lemma {:induction false} OfLanguageAppend(a: seq<EvaluationData>, b: seq<EvaluationData>, lang: Language)
    ensures OfLanguage(a + b, lang) == OfLanguage(a, lang) + OfLanguage(b, lang)
    decreases |a|
  {
    if a == [] {
      assert a + b == b;
    } else {
      assert (a + b)[1..] == a[1..] + b;
      OfLanguageAppend(a[1..], b, lang);
    }
  }

  /** Every evaluation is counted under exactly one of the two languages. */
  lemma {:induction false} LanguagesPartition(evals: seq<EvaluationData>)
    ensures |OfLanguage(evals, Korean)| + |OfLanguage(evals, English)| == |evals|
    decreases |evals|
  {
    if evals != [] {
      LanguagesPartition(evals[1..]);
    }
  }

  function TotalScores(evals: seq<EvaluationData>): (xs: seq<real>)
    ensures |xs| == |evals|
    ensures forall i :: 0 <= i < |evals| ==> xs[i] == evals[i].totalScore
  {
    seq(|evals|, i requires 0 <= i < |evals| => evals[i].totalScore)
  }

  // ---------------------------------------------------------------------
  // getLanguageStats

  /** Statistics of one language's totals; all zero when there are none. */
  function GetLanguageStats(evals: seq<EvaluationData>, lang: Language): (s: LanguageStats)
    ensures s.count == |OfLanguage(evals, lang)|
    ensures s.count == 0 ==> s == LanguageStats(0.0, 0.0, 0.0, 0)
    ensures s.count > 0 ==>
      var xs := TotalScores(OfLanguage(evals, lang));
      && s.min in xs && s.max in xs
      && (forall i :: 0 <= i < |xs| ==> s.min <= xs[i] <= s.max)
      && s.min <= s.average <= s.max
      && IsMean(s.average, s.count, Sum(xs))
  {
    var le := OfLanguage(evals, lang);
    if |le| == 0 then LanguageStats(0.0, 0.0, 0.0, 0)
    else Summarize(TotalScores(le))
  }

  /** The figures of a non-empty list of totals. */
  function Summarize(xs: seq<real>): (s: LanguageStats)
    requires |xs| > 0
    ensures s.count == |xs|
    ensures s.min in xs && s.max in xs
    ensures forall i :: 0 <= i < |xs| ==> s.min <= xs[i] <= s.max
    ensures s.min <= s.average <= s.max
    ensures IsMean(s.average, s.count, Sum(xs))
  {
    AverageBetween(xs);
    LanguageStats(Sum(xs) / |xs| as real, Min(xs), Max(xs), |xs|)
  }

  /** Evaluations in the other language do not affect any figure. */
  lemma OtherLanguageIgnored(a: seq<EvaluationData>, e: EvaluationData, b: seq<EvaluationData>, lang: Language)
    requires e.language != lang
    ensures GetLanguageStats(a + [e] + b, lang) == GetLanguageStats(a + b, lang)
  {
    OfLanguageSkipsOther(a, e, b, lang);
  }

  /** The filter drops an evaluation in another language wherever it stands. */
  lemma OfLanguageSkipsOther(a: seq<EvaluationData>, e: EvaluationData, b: seq<EvaluationData>, lang: Language)
    requires e.language != lang
    ensures OfLanguage(a + [e] + b, lang) == OfLanguage(a + b, lang)
  {
    OfLanguageAppend(a + [e], b, lang);
    OfLanguageAppend(a, [e], lang);
    OfLanguageAppend(a, b, lang);
    assert OfLanguage([e], lang) == [];
  }

  // ---------------------------------------------------------------------
  // getCategoryStats

  /** `ks.forEach((k) => categories.add(k))` on a set kept in insertion
      order. */
  function AddKeys(acc: seq<string>, ks: seq<string>): (r: seq<string>)
    ensures Distinct(acc) ==> Distinct(r)
    ensures forall k :: k in r <==> k in acc || k in ks
    ensures |acc| <= |r| && r[..|acc|] == acc
    decreases |ks|
  {
    if ks == [] then acc
    else
      var next := if ks[0] in acc then acc else acc + [ks[0]];
      var r := AddKeys(next, ks[1..]);
      assert forall k :: k in ks <==> k == ks[0] || k in ks[1..];
      assert r[..|acc|] == r[..|next|][..|acc|];
      r
  }

  /** The category names of every evaluation, each once, in order of first
      appearance. */
  function CollectCategories(acc: seq<string>, evals: seq<EvaluationData>): (r: seq<string>)
    ensures Distinct(acc) ==> Distinct(r)
    ensures forall k :: k in r <==> k in acc || exists e :: e in evals && k in Keys(e.scores)
    decreases |evals|
  {
    if evals == [] then acc
    else
      var r := CollectCategories(AddKeys(acc, Keys(evals[0].scores)), evals[1..]);
      assert forall e :: e in evals <==> e == evals[0] || e in evals[1..];
      r
  }

  /** `Object.values(e.scores[category] || {}).reduce((a, b) => a + b, 0)`:
      every stored item of the category counts; a missing category counts 0. */
  function CategorySubtotal(e: EvaluationData, cat: string): (t: real)
    ensures cat !in Keys(e.scores) ==> t == 0.0
  {
    SumValues(Get(e.scores, cat).GetOr([]))
  }

  /** A score entered in the form moves that category's subtotal on the
      dashboard by the new minus the previous score (0 for an item not yet
      scored), and leaves every other category's subtotal as it was. */
  lemma SubtotalAfterUpdate(e: EvaluationData, cat: string, item: string, v: real)
    ensures CategorySubtotal(e.(scores := UpdateScore(e.scores, cat, item, v)), cat)
         == CategorySubtotal(e, cat) - ScoreOf(e.scores, cat, item) + v
    ensures forall c :: c != cat ==>
              CategorySubtotal(e.(scores := UpdateScore(e.scores, cat, item, v)), c) == CategorySubtotal(e, c)
  {
    var inner := Get(e.scores, cat).GetOr([]);
    SumValuesPut(inner, item, v);
  }

  function Subtotals(evals: seq<EvaluationData>, cat: string): (xs: seq<real>)
    ensures |xs| == |evals|
    ensures forall i :: 0 <= i < |evals| ==> xs[i] == CategorySubtotal(evals[i], cat)
  {
    seq(|evals|, i requires 0 <= i < |evals| => CategorySubtotal(evals[i], cat))
  }

  function StatFor(cat: string, xs: seq<real>): (s: CategoryStat)
    requires |xs| > 0
    ensures s.category == cat
    ensures s.min <= s.average <= s.max
    ensures s.min in xs && s.max in xs
    ensures forall j :: 0 <= j < |xs| ==> s.min <= xs[j] <= s.max
    ensures IsMean(s.average, |xs|, Sum(xs))
  {
    var t := Summarize(xs);
    CategoryStat(cat, t.average, t.min, t.max)
  }

  function CategoriesOf(stats: seq<CategoryStat>): (cs: seq<string>)
    ensures |cs| == |stats|
    ensures forall i :: 0 <= i < |stats| ==> cs[i] == stats[i].category
  {
    seq(|stats|, i requires 0 <= i < |stats| => stats[i].category)
  }

  /** Per-category statistics of one language: one row per category name
      found in any of that language's sheets, none twice; each row
      aggregates that category's subtotal over all those evaluations. */
  function GetCategoryStats(evals: seq<EvaluationData>, lang: Language): (r: seq<CategoryStat>)
    ensures |OfLanguage(evals, lang)| == 0 ==> r == []
    ensures Distinct(CategoriesOf(r))
    ensures forall c :: c in CategoriesOf(r) <==>
              exists e :: e in evals && e.language == lang && c in Keys(e.scores)
    ensures forall i :: 0 <= i < |r| ==>
              var xs := Subtotals(OfLanguage(evals, lang), r[i].category);
              && r[i].min <= r[i].average <= r[i].max
              && r[i].min in xs && r[i].max in xs
              && (forall j :: 0 <= j < |xs| ==> r[i].min <= xs[j] <= r[i].max)
              && IsMean(r[i].average, |xs|, Sum(xs))
  {
    var le := OfLanguage(evals, lang);
    if |le| == 0 then []
    else
      CategoriesOfLanguage(evals, lang);
      StatsFor(le, CollectCategories([], le))
  }

  /** One statistics row per given category, over the given evaluations. */
  function StatsFor(evals: seq<EvaluationData>, cats: seq<string>): (r: seq<CategoryStat>)
    requires |evals| > 0
    ensures CategoriesOf(r) == cats
    ensures forall i :: 0 <= i < |r| ==>
              var xs := Subtotals(evals, r[i].category);
              && r[i].min <= r[i].average <= r[i].max
              && r[i].min in xs && r[i].max in xs
              && (forall j :: 0 <= j < |xs| ==> r[i].min <= xs[j] <= r[i].max)
              && IsMean(r[i].average, |xs|, Sum(xs))
  {
    var r := seq(|cats|, i requires 0 <= i < |cats| => StatFor(cats[i], Subtotals(evals, cats[i])));
    assert forall i :: 0 <= i < |r| ==> r[i] == StatFor(cats[i], Subtotals(evals, cats[i]));
    r
  }

  /** The categories collected from one language's sheets are the category
      names found in any of them. */
  lemma CategoriesOfLanguage(evals: seq<EvaluationData>, lang: Language)
    ensures Distinct(CollectCategories([], OfLanguage(evals, lang)))
    ensures forall c :: c in CollectCategories([], OfLanguage(evals, lang)) <==>
              exists e :: e in evals && e.language == lang && c in Keys(e.scores)
  {
    assert Distinct<string>([]);
  }

  /** A sheet without a category contributes a subtotal of 0 to that
      category's figures, so the category's minimum is at most 0. */
  lemma MissingCategoryCountsZero(evals: seq<EvaluationData>, lang: Language, i: nat, e: EvaluationData)
    requires 0 <= i < |GetCategoryStats(evals, lang)|
    requires e in evals && e.language == lang
    requires GetCategoryStats(evals, lang)[i].category !in Keys(e.scores)
    ensures GetCategoryStats(evals, lang)[i].min <= 0.0
  {
    var r := GetCategoryStats(evals, lang);
    var le := OfLanguage(evals, lang);
    var xs := Subtotals(le, r[i].category);
    var j :| 0 <= j < |le| && le[j] == e;
    assert xs[j] == 0.0;
  }
}

=== FILE: decimal.dfy ===
/** Decimal rendering of non-negative integers, as `String(n)` and
    `n.toString()` produce it, together with its inverse. */
module Decimal {

  predicate IsDigit(c: char) {
    '0' <= c <= '9'
  }

  predicate AllDigits(s: string) {
    forall i :: 0 <= i < |s| ==> IsDigit(s[i])
  }

  function DigitChar(d: nat): (c: char)
    requires d < 10
    ensures IsDigit(c)
  {
    ('0' as int + d) as char
  }

  function DigitValue(c: char): (d: nat)
    requires IsDigit(c)
    ensures d < 10
  {
    c as int - '0' as int
  }

  /** `n.toString()` for an integer `n >= 0`: shortest decimal form. */
  function NatToString(n: nat): (s: string)
    ensures |s| >= 1
    ensures AllDigits(s)
    ensures |s| > 1 ==> s[0] != '0'
    decreases n
  {
    if n < 10 then [DigitChar(n)]
    else NatToString(n / 10) + [DigitChar(n % 10)]
  }

  /** The value of a string of decimal digits (0 for the empty string). */
  function ParseDigits(s: string): nat
    requires AllDigits(s)
  {
    if s == [] then 0
    else ParseDigits(s[..|s| - 1]) * 10 + DigitValue(s[|s| - 1])
  }

  /** Reading back a rendered number gives the number. */
  lemma {:induction false} ParseNatToString(n: nat)
    ensures ParseDigits(NatToString(n)) == n
    decreases n
  {
    var s := NatToString(n);
    if n >= 10 {
      assert s[..|s| - 1] == NatToString(n / 10);
      ParseNatToString(n / 10);
    }
  }

  /** `s.padStart(2, "0")`: left-pad with zeros to at least two characters. */
  function PadStart2(s: string): (r: string)
    ensures |r| == if |s| >= 2 then |s| else 2
    ensures r[|r| - |s|..] == s
    ensures forall i :: 0 <= i < |r| - |s| ==> r[i] == '0'
  {
    if |s| >= 2 then s else seq(2 - |s|, _ => '0') + s
  }
}

=== FILE: identity.dfy ===
/** The evaluation page: resolving the name an evaluator types to an
    evaluator id (reuse the record of that name or create one guest record),
    and choosing what the page shows. The evaluators table is a sequence;
    backend faults, the id the database gives a new row and the uuid in the
    guest e-mail are parameters. */
module Identity {
  import opened Maybe
  import opened Text

  datatype Evaluator = Evaluator(id: string, name: string, email: string, isAdmin: bool)

  type EvaluatorTable = seq<Evaluator>

  /** The error code the backend gives `.single()` when no row matched. */
  const NoRowsCode: string := "PGRST116"

  /** A backend answer: the row's id, or an error code. */
  datatype LookupResponse = LookupResponse(data: Option<string>, errorCode: Option<string>)

  /** Position of the first evaluator called `name`, or `|table|`. */
  function FirstNamed(table: EvaluatorTable, name: string): (i: nat)
    ensures i <= |table|
    ensures i < |table| ==> table[i].name == name
    ensures forall j :: 0 <= j < i ==> table[j].name != name
  {
    if table == [] then 0
    else if table[0].name == name then 0
    else 1 + FirstNamed(table[1..], name)
  }

  /** `select("id").eq("name", name).limit(1).single()`: the first match's
      id, or the no-rows error; a transport or server fault replaces the
      answer by its own error code. */
  function Lookup(table: EvaluatorTable, name: string, fault: Option<string>): (resp: LookupResponse)
    ensures fault.Some? ==> resp == LookupResponse(None, fault)
    ensures fault.None? && resp.data.Some? ==> exists e :: e in table && e.name == name && e.id == resp.data.value
    ensures fault.None? && resp.data.None? ==> resp.errorCode == Some(NoRowsCode) && forall e :: e in table ==> e.name != name
    ensures fault.None? && resp.data.Some? ==> resp.errorCode.None?
  {
    if fault.Some? then LookupResponse(None, fault)
    else
      var i := FirstNamed(table, name);
      if i < |table| then LookupResponse(Some(table[i].id), None)
      else LookupResponse(None, Some(NoRowsCode))
  }

  /** The address of a guest evaluator. */
  function GuestEmail(uuid: string): (email: string)
    ensures StartsWith(email, "guest-") && EndsWith(email, "@example.com")
    ensures |email| == |uuid| + 18 && email[6..|email| - 12] == uuid
  {
    var email := "guest-" + uuid + "@example.com";
    assert email[..6] == "guest-";
    assert email[|email| - 12..] == "@example.com";
    assert email[6..|email| - 12] == uuid;
    email
  }

  /** Distinct uuids give distinct guest addresses. */
  lemma GuestEmailInjective(u1: string, u2: string)
    requires GuestEmail(u1) == GuestEmail(u2)
    ensures u1 == u2
  {
  }

  datatype NameOutcome =
    | Rejected            // blank name: nothing is looked up
    | Aborted             // a backend error: no id is set
    | Resolved(id: string)

  datatype Resolution = Resolution(outcome: NameOutcome, table: EvaluatorTable)

  /** `handleNameSubmit`: the trimmed name must not be empty; a lookup error
      other than "no rows" aborts; a found record's id is reused; otherwise
      one guest record with the trimmed name is inserted and its id used. */
  function ResolveEvaluator(table: EvaluatorTable, input: string, lookupFault: Option<string>,
                            insertFails: bool, newId: string, uuid: string): (r: Resolution)
    ensures Trim(input) == "" ==> r == Resolution(Rejected, table)
    ensures r.table == table || r.table == table + [Evaluator(newId, Trim(input), GuestEmail(uuid), false)]
    ensures r.table != table ==> r.outcome == Resolved(newId)
    ensures r.outcome.Resolved? && r.table == table ==>
              exists e :: e in table && e.name == Trim(input) && e.id == r.outcome.id
    ensures insertFails ==> r.table == table
    ensures Trim(input) != "" && (lookupFault.None? || lookupFault == Some(NoRowsCode))
            && (forall e :: e in table ==> e.name != Trim(input)) ==>
              r.outcome == (if insertFails then Aborted else Resolved(newId))
    ensures lookupFault.Some? && lookupFault != Some(NoRowsCode) ==> r.table == table && !r.outcome.Resolved?
  {
    var name := Trim(input);
    if name == "" then Resolution(Rejected, table)
    else
      var resp := Lookup(table, name, lookupFault);
      if resp.errorCode.Some? && resp.errorCode.value != NoRowsCode then Resolution(Aborted, table)
      else if resp.data.Some? then Resolution(Resolved(resp.data.value), table)
      else if insertFails then Resolution(Aborted, table)
      else Resolution(Resolved(newId), table + [Evaluator(newId, name, GuestEmail(uuid), false)])
  }

  /** With a healthy backend, a name already in the table resolves to the
      first such record's id and nothing is inserted. */
  lemma ExistingNameReused(table: EvaluatorTable, input: string, insertFails: bool, newId: string, uuid: string)
    requires Trim(input) != ""
    requires exists e :: e in table && e.name == Trim(input)
    ensures var r := ResolveEvaluator(table, input, None, insertFails, newId, uuid);
            r.table == table && r.outcome == Resolved(table[FirstNamed(table, Trim(input))].id)
  {
    var e :| e in table && e.name == Trim(input);
    var k :| 0 <= k < |table| && table[k] == e;
    assert FirstNamed(table, Trim(input)) <= k;
  }

  /** With a healthy backend, a new name creates exactly one guest record,
      not an administrator, holding the trimmed name, and its id is used. */
  lemma NewNameCreatesOneGuest(table: EvaluatorTable, input: string, newId: string, uuid: string)
    requires Trim(input) != ""
    requires forall e :: e in table ==> e.name != Trim(input)
    ensures var r := ResolveEvaluator(table, input, None, false, newId, uuid);
            r.outcome == Resolved(newId)
            && r.table == table + [Evaluator(newId, Trim(input), GuestEmail(uuid), false)]
  {
  }

  /** Resolving a name a second time (with the same trimmed text) gives the
      same id and leaves the table as the first resolution left it, so the
      table grows by at most one record over both calls. */
  lemma ResolveTwiceSameId(table: EvaluatorTable, input1: string, input2: string,
                           insertFails1: bool, newId1: string, uuid1: string,
                           insertFails2: bool, newId2: string, uuid2: string)
    requires Trim(input2) == Trim(input1)
    requires ResolveEvaluator(table, input1, None, insertFails1, newId1, uuid1).outcome.Resolved?
    ensures var r1 := ResolveEvaluator(table, input1, None, insertFails1, newId1, uuid1);
            var r2 := ResolveEvaluator(r1.table, input2, None, insertFails2, newId2, uuid2);
            r2 == Resolution(r1.outcome, r1.table) && |r2.table| <= |table| + 1
  {
    var name := Trim(input1);
    var r1 := ResolveEvaluator(table, input1, None, insertFails1, newId1, uuid1);
    var i := FirstNamed(table, name);
    if i < |table| {
      assert r1.table == table;
    } else {
      var t := r1.table;
      assert t == table + [Evaluator(newId1, name, GuestEmail(uuid1), false)];
      assert FirstNamed(t, name) == |table| by {
        FirstNamedAppend(table, Evaluator(newId1, name, GuestEmail(uuid1), false), name);
      }
    }
  }

  /** Typing the name again as it was stored (already trimmed) resolves to
      the same evaluator and inserts nothing more. */
  lemma TrimmedNameResolvesAgain(table: EvaluatorTable, input: string, insertFails1: bool, newId1: string, uuid1: string,
                                 insertFails2: bool, newId2: string, uuid2: string)
    requires ResolveEvaluator(table, input, None, insertFails1, newId1, uuid1).outcome.Resolved?
    ensures var r1 := ResolveEvaluator(table, input, None, insertFails1, newId1, uuid1);
            ResolveEvaluator(r1.table, Trim(input), None, insertFails2, newId2, uuid2) == r1
  {
    TrimIdempotent(input);
    ResolveTwiceSameId(table, input, Trim(input), insertFails1, newId1, uuid1, insertFails2, newId2, uuid2);
  }

  /** Appending a record does not change the position of an earlier match,
      and a name first found in the new record is found at the end. */
  lemma {:induction false} FirstNamedAppend(table: EvaluatorTable, e: Evaluator, name: string)
    ensures FirstNamed(table, name) < |table| ==> FirstNamed(table + [e], name) == FirstNamed(table, name)
    ensures FirstNamed(table, name) == |table| && e.name == name ==> FirstNamed(table + [e], name) == |table|
  {
    if table != [] {
      assert (table + [e])[1..] == table[1..] + [e];
      FirstNamedAppend(table[1..], e, name);
    }
  }

  // ---------------------------------------------------------------------
  // What the page shows

  /** The session row the page loads: `select("id, title, audio_url")`. */
  datatype SessionData = SessionData(id: string, title: string, audioUrl: Option<string>)

  datatype PageState = PageState(
    session: Option<SessionData>,
    loading: bool,
    error: string,
    evaluatorName: string,
    currentEvaluatorId: Option<string>,
    isNameSubmitting: bool)

  /** The page before the session has been fetched. */
  const InitialPage := PageState(None, true, "", "", None, false)

  datatype View =
    | LoadingSkeleton
    | ErrorPanel(message: string)
    | NameEntry(submitting: bool)
    | EvaluationPage(title: string, audioUrl: Option<string>, evaluatorId: string)

  /** The component's chain of early returns. */
  function Render(st: PageState): (v: View)
    ensures st.loading ==> v == LoadingSkeleton
    ensures !st.loading && (st.error != "" || st.session.None?) ==> v == ErrorPanel(st.error)
    ensures !st.loading && st.error == "" && st.session.Some? && !Truthy(st.currentEvaluatorId) ==>
              v == NameEntry(st.isNameSubmitting)
    ensures v.EvaluationPage? ==> st.session.Some? && Truthy(st.currentEvaluatorId)
                                  && v.evaluatorId == st.currentEvaluatorId.value
                                  && v.title == st.session.value.title
                                  && v.audioUrl == st.session.value.audioUrl
  {
    if st.loading then LoadingSkeleton
    else if st.error != "" || st.session.None? then ErrorPanel(st.error)
    else if !Truthy(st.currentEvaluatorId) then NameEntry(st.isNameSubmitting)
    else EvaluationPage(st.session.value.title, st.session.value.audioUrl, st.currentEvaluatorId.value)
  }

  /** The form is shown exactly when loading has finished without error, the
      session was found and an evaluator id has been set. */
  lemma FormShownIff(st: PageState)
    ensures Render(st).EvaluationPage? <==>
              !st.loading && st.error == "" && st.session.Some? && Truthy(st.currentEvaluatorId)
  {
  }

  /** `fetchSession` finishing: the row or the error message, and loading
      ends either way. */
  function SessionFetched(st: PageState, result: Option<SessionData>, errorMessage: string): (st': PageState)
    ensures !st'.loading
    ensures result.Some? ==> st'.session == result && st'.error == st.error
    ensures result.None? ==> st'.error == errorMessage && st'.session == st.session
    ensures st'.(session := st.session, error := st.error, loading := st.loading) == st
  {
    match result
    case Some(data) => st.(session := Some(data), loading := false)
    case None => st.(error := errorMessage, loading := false)
  }

  /** A failed fetch never leads to the form, whatever the error text. */
  lemma FailedFetchShowsNoForm(errorMessage: string)
    ensures !Render(SessionFetched(InitialPage, None, errorMessage)).EvaluationPage?
  {
  }

  /** `handleNameSubmit` seen from the page: a blank name returns before
      anything is touched; otherwise the id is set only on a resolution and
      the busy flag is off afterwards. */
  function SubmitName(st: PageState, table: EvaluatorTable, lookupFault: Option<string>,
                      insertFails: bool, newId: string, uuid: string): (r: (PageState, EvaluatorTable))
    ensures r.1 == ResolveEvaluator(table, st.evaluatorName, lookupFault, insertFails, newId, uuid).table
    ensures Trim(st.evaluatorName) == "" ==> r == (st, table)
    ensures Trim(st.evaluatorName) != "" ==> !r.0.isNameSubmitting
    ensures r.0.(currentEvaluatorId := st.currentEvaluatorId, isNameSubmitting := st.isNameSubmitting) == st
    ensures var outcome := ResolveEvaluator(table, st.evaluatorName, lookupFault, insertFails, newId, uuid).outcome;
            if outcome.Resolved? then r.0.currentEvaluatorId == Some(outcome.id)
            else r.0.currentEvaluatorId == st.currentEvaluatorId
  {
    var res := ResolveEvaluator(table, st.evaluatorName, lookupFault, insertFails, newId, uuid);
    match res.outcome
    case Rejected => (st, res.table)
    case Resolved(id) => (st.(currentEvaluatorId := Some(id), isNameSubmitting := false), res.table)
    case Aborted => (st.(isNameSubmitting := false), res.table)
  }

  /** On a loaded session, resolving a new name with a healthy backend opens
      the form for the new guest record (given the database returns a
      non-empty id). */
  lemma NewNameOpensForm(st: PageState, table: EvaluatorTable, newId: string, uuid: string)
    requires !st.loading && st.error == "" && st.session.Some?
    requires Trim(st.evaluatorName) != ""
    requires forall e :: e in table ==> e.name != Trim(st.evaluatorName)
    requires newId != ""
    ensures Render(SubmitName(st, table, None, false, newId, uuid).0) ==
              EvaluationPage(st.session.value.title, st.session.value.audioUrl, newId)
  {
    NewNameCreatesOneGuest(table, st.evaluatorName, newId, uuid);
  }
}

=== FILE: jsrecord.dfy ===
/** A JavaScript object used as a string-keyed dictionary
    (`Record<string, V>`): its entries in insertion order, which is the
    order `Object.keys`, `Object.values` and `for ... in` visit them for
    keys that are not array indices (JavaScript lists keys such as "1" or
    "10" first, in numeric order; that reordering is not modelled). */
module JsRecord {
  import opened Maybe

  datatype Entry<V> = Entry(key: string, value: V)

  type Rec<V> = seq<Entry<V>>

  /** `Object.keys(r)`. */
  function Keys<V>(r: Rec<V>): (ks: seq<string>)
    ensures |ks| == |r|
    ensures forall i :: 0 <= i < |r| ==> ks[i] == r[i].key
  {
    seq(|r|, i requires 0 <= i < |r| => r[i].key)
  }

  /** `Object.values(r)`. */
  function Values<V>(r: Rec<V>): (vs: seq<V>)
    ensures |vs| == |r|
    ensures forall i :: 0 <= i < |r| ==> vs[i] == r[i].value
  {
    seq(|r|, i requires 0 <= i < |r| => r[i].value)
  }

  /** No element occurs twice. */
  predicate Distinct<T(==)>(s: seq<T>) {
    forall i, j :: 0 <= i < j < |s| ==> s[i] != s[j]
  }

  /** A real JavaScript object never holds the same key twice. */
  predicate DistinctKeys<V>(r: Rec<V>) {
    Distinct(Keys(r))
  }

  /** Position of key `k`, or `|r|` when it is absent. */
  function IndexOf<V>(r: Rec<V>, k: string): (i: nat)
    ensures i <= |r|
    ensures i < |r| ==> r[i].key == k
    ensures forall j :: 0 <= j < i ==> r[j].key != k
    ensures i == |r| <==> k !in Keys(r)
  {
    if r == [] then 0
    else if r[0].key == k then 0
    else 1 + IndexOf(r[1..], k)
  }

  /** `r[k]` for an own key: `None` plays the part of `undefined`. Members
      inherited from `Object.prototype` are not modelled. */
  function Get<V>(r: Rec<V>, k: string): (v: Option<V>)
    ensures v.Some? <==> k in Keys(r)
    ensures v.Some? ==> Entry(k, v.value) in r
    ensures DistinctKeys(r) ==> forall i :: 0 <= i < |r| && r[i].key == k ==> v == Some(r[i].value)
  {
    var i := IndexOf(r, k);
    if i < |r| then
      assert r[i] == Entry(k, r[i].value);
      Some(r[i].value)
    else None
  }

  /** `{ ...r, [k]: v }`: an existing key keeps its position and takes the
      new value; a new key is appended at the end (as JavaScript does for a
      key that is not an array index). */
  function Put<V>(r: Rec<V>, k: string, v: V): (r': Rec<V>)
    ensures Get(r', k) == Some(v)
    ensures forall k' :: k' != k ==> Get(r', k') == Get(r, k')
    ensures k in Keys(r) ==> Keys(r') == Keys(r)
    ensures k !in Keys(r) ==> Keys(r') == Keys(r) + [k]
    ensures DistinctKeys(r) ==> DistinctKeys(r')
  {
    var i := IndexOf(r, k);
    if i < |r| then
      var r' := r[i := Entry(k, v)];
      assert Keys(r') == Keys(r);
      GetAfterPut(r, k, v, r');
      r'
    else
      var r' := r + [Entry(k, v)];
      assert Keys(r') == Keys(r) + [k];
      GetAfterPut(r, k, v, r');
      r'
  }

  /** The observable half of `Put`'s contract, proved once for both shapes. */
  lemma GetAfterPut<V>(r: Rec<V>, k: string, v: V, r': Rec<V>)
    requires IndexOf(r, k) < |r| ==> r' == r[IndexOf(r, k) := Entry(k, v)]
    requires IndexOf(r, k) == |r| ==> r' == r + [Entry(k, v)]
    ensures Get(r', k) == Some(v)
    ensures forall k' :: k' != k ==> Get(r', k') == Get(r, k')
  {
    var i := IndexOf(r, k);
    assert r'[i].key == k;
    assert forall j :: 0 <= j < i ==> r'[j] == r[j];
    assert IndexOf(r', k) == i by {
      IndexOfIsFirst(r', k, i);
    }
    forall k' | k' != k
      ensures Get(r', k') == Get(r, k')
    {
      var m := IndexOf(r, k');
      if m < |r| {
        assert m != i;
        assert r'[m] == r[m];
        assert forall j :: 0 <= j < m ==> r'[j].key != k' by {
          forall j | 0 <= j < m ensures r'[j].key != k' {
            if j == i { } else { assert r'[j] == r[j]; }
          }
        }
        IndexOfIsFirst(r', k', m);
      } else {
        assert forall j :: 0 <= j < |r'| ==> r'[j].key != k' by {
          forall j | 0 <= j < |r'| ensures r'[j].key != k' {
            if j == i { } else { assert r'[j] == r[j]; }
          }
        }
        IndexOfIsFirst(r', k', |r'|);
      }
    }
  }

  /** `IndexOf` is characterised by "first position holding the key". */
  lemma IndexOfIsFirst<V>(r: Rec<V>, k: string, i: nat)
    requires i <= |r|
    requires i < |r| ==> r[i].key == k
    requires forall j :: 0 <= j < i ==> r[j].key != k
    ensures IndexOf(r, k) == i
  {
  }

  /** Writing the same key twice keeps only the second value, and the
      object is exactly the one a single write of the second value would
      have produced. */
  lemma PutPut<V>(r: Rec<V>, k: string, v: V, w: V)
    ensures Put(Put(r, k, v), k, w) == Put(r, k, w)
  {
    var r1 := Put(r, k, v);
    PutShape(r, k, v);
    PutShape(r, k, w);
    PutKeepsIndex(r, k, v);
    PutShape(r1, k, w);
    if IndexOf(r, k) == |r| {
      AppendThenUpdate(r, Entry(k, v), Entry(k, w));
    }
  }

  /** A spread write leaves the key where `IndexOf` found it, or puts it at
      the old end. */
  lemma PutKeepsIndex<V>(r: Rec<V>, k: string, v: V)
    ensures IndexOf(Put(r, k, v), k) == IndexOf(r, k)
  {
    var i := IndexOf(r, k);
    PutShape(r, k, v);
    IndexOfIsFirst(Put(r, k, v), k, i);
  }

  /** Overwriting an appended element is appending the new one. */
  lemma AppendThenUpdate<T>(s: seq<T>, a: T, b: T)
    ensures (s + [a])[|s| := b] == s + [b]
  {
  }

  /** The two shapes of a spread write: in place, or appended. */
  lemma PutShape<V>(r: Rec<V>, k: string, v: V)
    ensures IndexOf(r, k) < |r| ==> Put(r, k, v) == r[IndexOf(r, k) := Entry(k, v)]
    ensures IndexOf(r, k) == |r| ==> Put(r, k, v) == r + [Entry(k, v)]
  {
  }

  /** Sum of the values of a numeric record
      (`Object.values(r).reduce((a, b) => a + b, 0)`). */
  function SumValues(r: Rec<real>): real {
    if r == [] then 0.0 else SumValues(r[..|r| - 1]) + r[|r| - 1].value
  }

  /** Replacing one entry in place changes the sum by the difference. */
  lemma {:induction false} SumValuesUpdate(r: Rec<real>, i: nat, e: Entry<real>)
    requires i < |r|
    ensures SumValues(r[i := e]) == SumValues(r) - r[i].value + e.value
    decreases |r|
  {
    var n := |r| - 1;
    assert r[i := e][..n] == if i == n then r[..n] else r[..n][i := e];
    if i < n {
      SumValuesUpdate(r[..n], i, e);
    }
  }

  /** A write through `Put` changes the sum by the difference between the
      new and the old value (the old value counts 0 when the key is new). */
  lemma SumValuesPut(r: Rec<real>, k: string, v: real)
    ensures SumValues(Put(r, k, v)) == SumValues(r) - Get(r, k).GetOr(0.0) + v
  {
    var i := IndexOf(r, k);
    if i < |r| {
      assert Put(r, k, v) == r[i := Entry(k, v)];
      assert Get(r, k) == Some(r[i].value);
      SumValuesUpdate(r, i, Entry(k, v));
    } else {
      var r' := r + [Entry(k, v)];
      assert Put(r, k, v) == r';
      assert r'[..|r|] == r;
    }
  }
}

=== FILE: maybe.dfy ===
/** The optional value used wherever the application reads a possibly
    missing field (`undefined` or `null` in JavaScript). */
module Maybe {

  datatype Option<+T> = None | Some(value: T) {

    /** The value, or `default` when there is none (the `x ?? d` idiom). */
    function GetOr(default: T): T {
      match this
      case Some(v) => v
      case None => default
    }
  }

  /** JavaScript truthiness of a `string | null`: present and non-empty. */
  predicate Truthy(s: Option<string>) {
    s.Some? && s.value != ""
  }
}

=== FILE: player.dfy ===
/** The audio player on the evaluation page: the "m:ss" time display and
    the play / pause / reset / seek state kept beside the `<audio>`
    element. The element is modelled by the part of its state the component
    reads and writes. */
module Player {
  import opened Maybe
  import opened Decimal

  // ---------------------------------------------------------------------
  // formatTime

  /** `formatTime(t)` for whole seconds: the minutes without padding, a
      colon, and the seconds padded to two digits. */
  function FormatTime(t: nat): (r: string)
    ensures |r| >= 4 && r[|r| - 3] == ':'
    ensures AllDigits(r[..|r| - 3]) && AllDigits(r[|r| - 2..])
    ensures ParseDigits(r[..|r| - 3]) == t / 60
    ensures ParseDigits(r[|r| - 2..]) == t % 60
    ensures |r| > 4 ==> r[0] != '0'
  {
    var minutes := NatToString(t / 60);
    var seconds := PadStart2(NatToString(t % 60));
    ShortNumeral(t % 60);
    ParseNatToString(t / 60);
    ParseNatToString(t % 60);
    ParsePadStart2(NatToString(t % 60));
    var r := minutes + ":" + seconds;
    assert r[..|r| - 3] == minutes;
    assert r[|r| - 2..] == seconds;
    r
  }

  /** Numbers below 100 have at most two digits. */
  lemma ShortNumeral(n: nat)
    requires n < 100
    ensures |NatToString(n)| <= 2
  {
    if n >= 10 {
      assert NatToString(n / 10) == [DigitChar(n / 10)];
    }
  }

  /** A leading zero does not change a decimal value. */
  lemma {:induction false} ParseLeadingZero(s: string)
    requires AllDigits(s)
    ensures ParseDigits("0" + s) == ParseDigits(s)
    decreases |s|
  {
    if s != [] {
      var z := "0" + s;
      assert z[..|z| - 1] == "0" + s[..|s| - 1];
      ParseLeadingZero(s[..|s| - 1]);
    }
  }

  /** Zero-padding keeps the value. */
  lemma ParsePadStart2(s: string)
    requires AllDigits(s) && |s| >= 1
    ensures AllDigits(PadStart2(s))
    ensures ParseDigits(PadStart2(s)) == ParseDigits(s)
  {
    if |s| < 2 {
      var p := PadStart2(s);
      assert p == "0" + s by {
        assert |p| == 2 && p[0] == '0' && p[1..] == s;
      }
      ParseLeadingZero(s);
    }
  }

  /** The display reads back as the time: minutes x 60 + seconds = t, and
      the seconds field is two digits below 60. */
  lemma FormatTimeReadsBack(t: nat)
    ensures var r := FormatTime(t);
            |r[|r| - 2..]| == 2
            && ParseDigits(r[|r| - 2..]) < 60
            && ParseDigits(r[..|r| - 3]) * 60 + ParseDigits(r[|r| - 2..]) == t
  {
  }

  /** Different times are displayed differently. */
  lemma FormatTimeInjective(a: nat, b: nat)
    requires FormatTime(a) == FormatTime(b)
    ensures a == b
  {
    FormatTimeReadsBack(a);
    FormatTimeReadsBack(b);
  }

  // ---------------------------------------------------------------------
  // Playback state

  /** The part of the `<audio>` element the component touches. */
  datatype Element = Element(currentTime: real, duration: real, volume: real, playing: bool)

  /** The component's state, and its element (absent until mounted). */
  datatype State = State(element: Option<Element>, isPlaying: bool, currentTime: real, duration: real, volume: real)

  /** Before anything has happened: paused at 0, full volume. */
  function Initial(element: Option<Element>): State {
    State(element, false, 0.0, 0.0, 1.0)
  }

  datatype Event =
    | TogglePlay
    | TimeUpdate
    | LoadedMetadata
    | Seek(to: real)
    | VolumeChange(level: real)
    | Reset
    | Ended

  /** The state after a handler runs. Every handler except the volume one
      does nothing while the element is absent. */
  function Step(s: State, ev: Event): (s': State)
    ensures s'.element.Some? <==> s.element.Some?
    ensures ev == TogglePlay ==>
              s'.isPlaying == (if s.element.Some? then !s.isPlaying else s.isPlaying)
    ensures ev == Ended ==> !s'.isPlaying
    ensures ev.Seek? || ev == Reset ==> s'.isPlaying == s.isPlaying
    ensures ev.Seek? && s.element.Some? ==> s'.currentTime == ev.to && s'.element.value.currentTime == ev.to
    ensures ev == Reset && s.element.Some? ==> s'.currentTime == 0.0 && s'.element.value.currentTime == 0.0
    ensures ev.VolumeChange? ==> s'.volume == ev.level
    ensures s.element.None? && !ev.VolumeChange? && ev != Ended ==> s' == s
    ensures ev == TimeUpdate && s.element.Some? ==> s' == s.(currentTime := s.element.value.currentTime)
    ensures ev == LoadedMetadata && s.element.Some? ==> s' == s.(duration := s.element.value.duration)
    ensures ev == TogglePlay || ev == Ended ==> s'.(isPlaying := s.isPlaying, element := s.element) == s
    ensures (ev == TogglePlay || ev == Ended) && s.element.Some? ==>
              s'.element == Some(s.element.value.(playing := s'.isPlaying))
    ensures ev.Seek? || ev == Reset ==> s'.(currentTime := s.currentTime, element := s.element) == s
    ensures (ev.Seek? || ev == Reset) && s.element.Some? ==>
              s'.element == Some(s.element.value.(currentTime := s'.currentTime))
    ensures ev.VolumeChange? ==> s'.(volume := s.volume, element := s.element) == s
    ensures ev.VolumeChange? && s.element.Some? ==> s'.element == Some(s.element.value.(volume := ev.level))
  {
    match ev
    case TogglePlay =>
      if s.element.None? then s
      else
        var e := s.element.value;
        s.(element := Some(e.(playing := !s.isPlaying)), isPlaying := !s.isPlaying)
    case TimeUpdate =>
      if s.element.None? then s else s.(currentTime := s.element.value.currentTime)
    case LoadedMetadata =>
      if s.element.None? then s else s.(duration := s.element.value.duration)
    case Seek(to) =>
      if s.element.None? then s
      else s.(element := Some(s.element.value.(currentTime := to)), currentTime := to)
    case VolumeChange(level) =>
      if s.element.None? then s.(volume := level)
      else s.(element := Some(s.element.value.(volume := level)), volume := level)
    case Reset =>
      if s.element.None? then s
      else s.(element := Some(s.element.value.(currentTime := 0.0)), currentTime := 0.0)
    case Ended =>
      // the element fires "ended" once it has stopped by itself
      match s.element
      case None => s.(isPlaying := false)
      case Some(e) => s.(element := Some(e.(playing := false)), isPlaying := false)
  }

  /** The play button's icon agrees with what the element does. */
  predicate InSync(s: State) {
    s.element.Some? ==> s.element.value.playing == s.isPlaying
  }

  /** Every handler keeps the button in step with the element. */
  lemma StepKeepsInSync(s: State, ev: Event)
    requires InSync(s)
    ensures InSync(Step(s, ev))
  {
  }

  /** Toggling twice restores the state. */
  lemma ToggleTwice(s: State)
    requires InSync(s)
    ensures Step(Step(s, TogglePlay), TogglePlay) == s
  {
  }

  /** The state after a sequence of events. */
  function Run(s: State, evs: seq<Event>): State
    decreases |evs|
  {
    if evs == [] then s else Run(Step(s, evs[0]), evs[1..])
  }

  /** Any sequence of handlers keeps the button in step with the element. */
  lemma {:induction false} RunKeepsInSync(s: State, evs: seq<Event>)
    requires InSync(s)
    ensures InSync(Run(s, evs))
    decreases |evs|
  {
    if evs != [] {
      StepKeepsInSync(s, evs[0]);
      RunKeepsInSync(Step(s, evs[0]), evs[1..]);
    }
  }

  /** Without an element nothing ever plays: the button stays on "play"
      whatever the user clicks. */
  lemma {:induction false} NoElementNeverPlays(s: State, evs: seq<Event>)
    requires s.element.None? && !s.isPlaying
    ensures !Run(s, evs).isPlaying
    decreases |evs|
  {
    if evs != [] {
      NoElementNeverPlays(Step(s, evs[0]), evs[1..]);
    }
  }
}

=== FILE: score_options.dfy ===
/** The score selector of one rubric item: the half-point options it offers
    and the value it hands back to the score sheet. */
module ScoreOptions {
  import opened JsRecord
  import opened Scoring

  /** A non-negative multiple of 0.5. */
  predicate IsHalfStep(x: real) {
    x >= 0.0 && (2.0 * x).Floor as real == 2.0 * x
  }

  /** How many times `for (let i = 0; i <= maxScore * 2; i++)` runs. */
  function OptionCount(maxScore: real): nat {
    if maxScore < 0.0 then 0 else (2.0 * maxScore).Floor + 1
  }

  /** The value of the selector's `k`-th option, `k * 0.5`. */
  function OptionValue(k: nat): real {
    k as real / 2.0
  }

  /** The option list `0, 0.5, 1, ..., maxScore` of the selector: exactly the
      half-point values between 0 and `maxScore`, in increasing order. */
  method Options(maxScore: real) returns (options: seq<real>)
    ensures |options| == OptionCount(maxScore)
    ensures forall i :: 0 <= i < |options| ==> options[i] == OptionValue(i)
    ensures forall i :: 0 <= i < |options| - 1 ==> options[i + 1] == options[i] + 0.5
    ensures forall i :: 0 <= i < |options| ==> IsHalfStep(options[i]) && options[i] <= maxScore
    ensures forall x :: IsHalfStep(x) && x <= maxScore ==> x in options
  {
    options := [];
    var i := 0;
    while (i as real) <= maxScore * 2.0
      invariant 0 <= i <= OptionCount(maxScore)
      invariant |options| == i
      invariant forall j :: 0 <= j < i ==> options[j] == OptionValue(j)
      decreases OptionCount(maxScore) - i
    {
      options := options + [OptionValue(i)];
      i := i + 1;
    }
    forall j | 0 <= j < |options|
      ensures IsHalfStep(options[j]) && options[j] <= maxScore
    {
      assert 2.0 * options[j] == j as real;
    }
    forall x | IsHalfStep(x) && x <= maxScore
      ensures x in options
    {
      var n := (2.0 * x).Floor;
      assert n <= (2.0 * maxScore).Floor;
      assert options[n] == x;
    }
  }

  /** For a half-point maximum `m = n / 2` there are `2m + 1` options, the
      last of which is `m` itself. */
  lemma HalfPointMaximumCount(n: nat)
    ensures OptionCount(n as real / 2.0) == n + 1
    ensures IsHalfStep(n as real / 2.0)
  {
    assert 2.0 * (n as real / 2.0) == n as real;
  }

  /** Choosing option `k` of an item's selector writes a value that keeps
      every rubric score of the sheet within its item's range. */
  lemma ChoosingAnOptionKeepsSheetInRange(scores: ScoreMap, rubric: Rubric, cat: string, item: string, k: nat)
    requires WellFormed(rubric)
    requires WithinRubric(scores, rubric)
    requires item in Keys(RubricItems(rubric, cat))
    requires k < OptionCount(Get(RubricItems(rubric, cat), item).value)
    ensures WithinRubric(UpdateScore(scores, cat, item, OptionValue(k)), rubric)
  {
    OptionWithinMaximum(k, Get(RubricItems(rubric, cat), item).value);
    UpdateKeepsWithinRubric(scores, rubric, cat, item, OptionValue(k));
  }

  /** The value of option `k` lies between 0 and the maximum. */
  lemma OptionWithinMaximum(k: nat, maxScore: real)
    requires k < OptionCount(maxScore)
    ensures 0.0 <= OptionValue(k) <= maxScore
  {
    assert k as real <= 2.0 * maxScore;
  }
}

=== FILE: scoring.dfy ===
/** The evaluator's score sheet: scores entered per category and item, the
    category and overall totals computed against a rubric, and the record
    handed to storage when one language's evaluation is submitted. */
module Scoring {
  import opened Maybe
  import opened JsRecord

  datatype Language = Korean | English

  function Other(lang: Language): Language {
    if lang == Korean then English else Korean
  }

  /** Scores entered so far: category -> item -> points. */
  type ScoreMap = Rec<Rec<real>>

  /** One rubric category: item -> maximum points, plus the maximum shown
      in the category header. */
  datatype CategoryDef = CategoryDef(items: Rec<real>, maxScore: real)

  /** A language's rubric: category -> definition. Its contents are
      configuration, so every operation takes it as a parameter. */
  type Rubric = Rec<CategoryDef>

  /** Both languages' rubrics. */
  datatype Rubrics = Rubrics(korean: Rubric, english: Rubric) {
    function For(lang: Language): Rubric {
      if lang == Korean then korean else english
    }
  }

  /** Rubrics come from object literals: no duplicate category or item
      names, and no negative maxima. */
  predicate WellFormed(rubric: Rubric) {
    && DistinctKeys(rubric)
    && forall p :: 0 <= p < |rubric| ==>
         && DistinctKeys(rubric[p].value.items)
         && forall q :: 0 <= q < |rubric[p].value.items| ==> rubric[p].value.items[q].value >= 0.0
  }

  // ---------------------------------------------------------------------
  // Sums over a list of keys

  /** `let t = 0; for (const k of keys) t += f(k)`. */
  function SumOver(keys: seq<string>, f: string -> real): real {
    if keys == [] then 0.0
    else SumOver(keys[..|keys| - 1], f) + f(keys[|keys| - 1])
  }

  /** The sum reads `f` only at the listed keys. */
  lemma {:induction false} SumOverCongruent(keys: seq<string>, f: string -> real, g: string -> real)
    requires forall k :: k in keys ==> f(k) == g(k)
    ensures SumOver(keys, f) == SumOver(keys, g)
    decreases |keys|
  {
    if keys != [] {
      SumOverCongruent(keys[..|keys| - 1], f, g);
    }
  }

  /** Changing `f` at one key of a duplicate-free list by `d` changes the
      sum by `d`; changing it at a key not listed changes nothing. */
  lemma {:induction false} SumOverDelta(keys: seq<string>, f: string -> real, g: string -> real, key: string, d: real)
    requires Distinct(keys)
    requires forall k :: k in keys && k != key ==> f(k) == g(k)
    requires g(key) == f(key) + d
    ensures SumOver(keys, g) == SumOver(keys, f) + (if key in keys then d else 0.0)
    decreases |keys|
  {
    if keys != [] {
      var n := |keys| - 1;
      var init := keys[..n];
      assert forall k :: k in init ==> k in keys;
      if keys[n] == key {
        assert key !in init;
        SumOverCongruent(init, f, g);
      } else {
        SumOverDelta(init, f, g, key, d);
        assert key in keys <==> key in init;
      }
    }
  }

  // ---------------------------------------------------------------------
  // Reading scores and the rubric

  /** `scores[cat]?.[item] || 0`: the score shown in an item's selector and
      counted in the totals; missing entries count 0. */
  function ScoreOf(scores: ScoreMap, cat: string, item: string): (v: real)
    ensures cat !in Keys(scores) ==> v == 0.0
    ensures cat in Keys(scores) && item !in Keys(Get(scores, cat).value) ==> v == 0.0
    ensures cat in Keys(scores) && item in Keys(Get(scores, cat).value) ==> Entry(item, v) in Get(scores, cat).value
  {
    match Get(scores, cat)
    case None => 0.0
    case Some(items) => Get(items, item).GetOr(0.0)
  }

  /** `criteria[cat]?.items || {}`. */
  function RubricItems(rubric: Rubric, cat: string): Rec<real> {
    match Get(rubric, cat)
    case None => []
    case Some(def) => def.items
  }

  /** Sum of a category's item maxima. */
  function CategoryMax(rubric: Rubric, cat: string): real {
    SumValues(RubricItems(rubric, cat))
  }

  /** Sum of every category's item maxima. */
  function RubricMax(rubric: Rubric): real {
    SumOver(Keys(rubric), c => CategoryMax(rubric, c))
  }

  // ---------------------------------------------------------------------
  // calculateCategoryTotal / calculateOverallTotal

  function CategoryTotal(cat: string, scores: ScoreMap, rubric: Rubric): (t: real)
    ensures cat !in Keys(rubric) ==> t == 0.0
  {
    SumOver(Keys(RubricItems(rubric, cat)), item => ScoreOf(scores, cat, item))
  }

  function OverallTotal(scores: ScoreMap, rubric: Rubric): real {
    SumOver(Keys(rubric), c => CategoryTotal(c, scores, rubric))
  }

  /** A category total is decided by the scores of that category's rubric
      items alone: entries for other items and other categories are ignored. */
  lemma CategoryTotalReadsOnlyRubricItems(cat: string, s1: ScoreMap, s2: ScoreMap, rubric: Rubric)
    requires forall item :: item in Keys(RubricItems(rubric, cat)) ==> ScoreOf(s1, cat, item) == ScoreOf(s2, cat, item)
    ensures CategoryTotal(cat, s1, rubric) == CategoryTotal(cat, s2, rubric)
  {
    SumOverCongruent(Keys(RubricItems(rubric, cat)),
                     item => ScoreOf(s1, cat, item), item => ScoreOf(s2, cat, item));
  }

  /** The overall total is decided by the scores of rubric items alone. */
  lemma OverallTotalReadsOnlyRubricItems(s1: ScoreMap, s2: ScoreMap, rubric: Rubric)
    requires forall c, item :: c in Keys(rubric) && item in Keys(RubricItems(rubric, c)) ==>
               ScoreOf(s1, c, item) == ScoreOf(s2, c, item)
    ensures OverallTotal(s1, rubric) == OverallTotal(s2, rubric)
  {
    forall c | c in Keys(rubric)
      ensures CategoryTotal(c, s1, rubric) == CategoryTotal(c, s2, rubric)
    {
      CategoryTotalReadsOnlyRubricItems(c, s1, s2, rubric);
    }
    SumOverCongruent(Keys(rubric), c => CategoryTotal(c, s1, rubric), c => CategoryTotal(c, s2, rubric));
  }

  /** Nothing entered yet: every total is zero. */
  lemma OverallTotalOfEmptySheet(rubric: Rubric)
    ensures OverallTotal([], rubric) == 0.0
  {
    forall c | c in Keys(rubric)
      ensures CategoryTotal(c, [], rubric) == 0.0
    {
      SumOverCongruent(Keys(RubricItems(rubric, c)), item => ScoreOf([], c, item), _ => 0.0);
      SumOfZeros(Keys(RubricItems(rubric, c)));
    }
    SumOverCongruent(Keys(rubric), c => CategoryTotal(c, [], rubric), _ => 0.0);
    SumOfZeros(Keys(rubric));
  }

  lemma {:induction false} SumOfZeros(keys: seq<string>)
    ensures SumOver(keys, _ => 0.0) == 0.0
    decreases |keys|
  {
    if keys != [] {
      SumOfZeros(keys[..|keys| - 1]);
    }
  }

  // ---------------------------------------------------------------------
  // Bounds

  /** Every rubric item's score lies between 0 and the item's maximum. */
  predicate WithinRubric(scores: ScoreMap, rubric: Rubric) {
    forall c, q :: c in Keys(rubric) && 0 <= q < |RubricItems(rubric, c)| ==>
      0.0 <= ScoreOf(scores, c, RubricItems(rubric, c)[q].key) <= RubricItems(rubric, c)[q].value
  }

  /** The empty sheet is within any well-formed rubric. */
  lemma EmptySheetWithinRubric(rubric: Rubric)
    requires WellFormed(rubric)
    ensures WithinRubric([], rubric)
  {
    forall c, q | c in Keys(rubric) && 0 <= q < |RubricItems(rubric, c)|
      ensures 0.0 <= RubricItems(rubric, c)[q].value
    {
      var p := IndexOf(rubric, c);
      assert RubricItems(rubric, c) == rubric[p].value.items;
    }
  }

  /** Entering a value between 0 and the item's maximum (what the item's
      selector offers) keeps every rubric score in range. */
  lemma UpdateKeepsWithinRubric(scores: ScoreMap, rubric: Rubric, cat: string, item: string, v: real)
    requires WellFormed(rubric)
    requires WithinRubric(scores, rubric)
    requires item in Keys(RubricItems(rubric, cat))
    requires 0.0 <= v <= Get(RubricItems(rubric, cat), item).value
    ensures WithinRubric(UpdateScore(scores, cat, item, v), rubric)
  {
    var s' := UpdateScore(scores, cat, item, v);
    forall c, q | c in Keys(rubric) && 0 <= q < |RubricItems(rubric, c)|
      ensures 0.0 <= ScoreOf(s', c, RubricItems(rubric, c)[q].key) <= RubricItems(rubric, c)[q].value
    {
      var items := RubricItems(rubric, c);
      if c == cat && items[q].key == item {
        var p := IndexOf(rubric, c);
        assert items == rubric[p].value.items;
        assert DistinctKeys(items);
        IndexOfIsFirst(items, item, q);
      }
    }
  }

  lemma {:induction false} SumOverItemsBounded(scores: ScoreMap, cat: string, items: Rec<real>)
    requires forall q :: 0 <= q < |items| ==> 0.0 <= ScoreOf(scores, cat, items[q].key) <= items[q].value
    ensures 0.0 <= SumOver(Keys(items), item => ScoreOf(scores, cat, item)) <= SumValues(items)
    decreases |items|
  {
    if items != [] {
      var n := |items| - 1;
      assert Keys(items)[..n] == Keys(items[..n]);
      SumOverItemsBounded(scores, cat, items[..n]);
    }
  }

  /** With every score in range, a category total lies between 0 and the
      sum of that category's item maxima. */
  lemma CategoryTotalBounds(cat: string, scores: ScoreMap, rubric: Rubric)
    requires WithinRubric(scores, rubric)
    ensures 0.0 <= CategoryTotal(cat, scores, rubric) <= CategoryMax(rubric, cat)
  {
    SumOverItemsBounded(scores, cat, RubricItems(rubric, cat));
  }

  lemma {:induction false} SumOverBounded(keys: seq<string>, f: string -> real, g: string -> real)
    requires forall k :: k in keys ==> 0.0 <= f(k) <= g(k)
    ensures 0.0 <= SumOver(keys, f) <= SumOver(keys, g)
    decreases |keys|
  {
    if keys != [] {
      SumOverBounded(keys[..|keys| - 1], f, g);
    }
  }

  /** With every score in range, the overall total lies between 0 and the
      rubric's maximum. */
  lemma OverallTotalBounds(scores: ScoreMap, rubric: Rubric)
    requires WithinRubric(scores, rubric)
    ensures 0.0 <= OverallTotal(scores, rubric) <= RubricMax(rubric)
  {
    forall c | c in Keys(rubric)
      ensures 0.0 <= CategoryTotal(c, scores, rubric) <= CategoryMax(rubric, c)
    {
      CategoryTotalBounds(c, scores, rubric);
    }
    SumOverBounded(Keys(rubric), c => CategoryTotal(c, scores, rubric), c => CategoryMax(rubric, c));
  }

  // ---------------------------------------------------------------------
  // updateKoreanScore / updateEnglishScore

  /** `{ ...prev, [cat]: { ...prev[cat], [item]: score } }`. */
  function UpdateScore(scores: ScoreMap, cat: string, item: string, score: real): (r: ScoreMap)
    ensures ScoreOf(r, cat, item) == score
    ensures forall c, i :: (c != cat || i != item) ==> ScoreOf(r, c, i) == ScoreOf(scores, c, i)
    ensures forall c :: c != cat ==> Get(r, c) == Get(scores, c)
    ensures Get(r, cat).Some?
    ensures forall i :: i != item ==> Get(Get(r, cat).value, i) == Get(Get(scores, cat).GetOr([]), i)
  {
    Put(scores, cat, Put(Get(scores, cat).GetOr([]), item, score))
  }

  /** Two writes to the same entry leave exactly what the second write alone
      would have produced. */
  lemma UpdateLastWriteWins(scores: ScoreMap, cat: string, item: string, v: real, w: real)
    ensures UpdateScore(UpdateScore(scores, cat, item, v), cat, item, w) == UpdateScore(scores, cat, item, w)
  {
    var inner := Get(scores, cat).GetOr([]);
    PutPut(inner, item, v, w);
    PutPut(scores, cat, Put(inner, item, v), Put(Put(inner, item, v), item, w));
  }

  /** Writes to different entries commute: every score, and so every total,
      is the same in either order (only the key order of a new category or
      item can differ). */
  lemma UpdatesCommute(scores: ScoreMap, c1: string, i1: string, v1: real, c2: string, i2: string, v2: real, rubric: Rubric)
    requires c1 != c2 || i1 != i2
    ensures forall c, i :: ScoreOf(UpdateScore(UpdateScore(scores, c1, i1, v1), c2, i2, v2), c, i)
                        == ScoreOf(UpdateScore(UpdateScore(scores, c2, i2, v2), c1, i1, v1), c, i)
    ensures OverallTotal(UpdateScore(UpdateScore(scores, c1, i1, v1), c2, i2, v2), rubric)
         == OverallTotal(UpdateScore(UpdateScore(scores, c2, i2, v2), c1, i1, v1), rubric)
  {
    var a := UpdateScore(UpdateScore(scores, c1, i1, v1), c2, i2, v2);
    var b := UpdateScore(UpdateScore(scores, c2, i2, v2), c1, i1, v1);
    forall c, i
      ensures ScoreOf(a, c, i) == ScoreOf(b, c, i)
    {
      ScoreAfterTwoUpdates(scores, c1, i1, v1, c2, i2, v2, c, i);
      ScoreAfterTwoUpdates(scores, c2, i2, v2, c1, i1, v1, c, i);
    }
    OverallTotalReadsOnlyRubricItems(a, b, rubric);
  }

  /** The score of one entry after two writes: the later write to it, else
      the earlier, else what it was. */
  lemma ScoreAfterTwoUpdates(scores: ScoreMap, c1: string, i1: string, v1: real, c2: string, i2: string, v2: real,
                             c: string, i: string)
    ensures ScoreOf(UpdateScore(UpdateScore(scores, c1, i1, v1), c2, i2, v2), c, i)
         == if c == c2 && i == i2 then v2 else if c == c1 && i == i1 then v1 else ScoreOf(scores, c, i)
  {
  }

  /** Entering a score changes its category total by the difference from the
      previous score when the item belongs to the rubric, and not at all
      otherwise. */
  lemma UpdateCategoryTotal(scores: ScoreMap, cat: string, item: string, v: real, rubric: Rubric)
    requires DistinctKeys(RubricItems(rubric, cat))
    ensures CategoryTotal(cat, UpdateScore(scores, cat, item, v), rubric)
         == CategoryTotal(cat, scores, rubric)
            + (if item in Keys(RubricItems(rubric, cat)) then v - ScoreOf(scores, cat, item) else 0.0)
  {
    var s' := UpdateScore(scores, cat, item, v);
    SumOverDelta(Keys(RubricItems(rubric, cat)),
                 i => ScoreOf(scores, cat, i), i => ScoreOf(s', cat, i),
                 item, v - ScoreOf(scores, cat, item));
  }

  /** Entering a score changes the overall total by the difference from the
      previous score when the entry belongs to the rubric, and not at all
      otherwise. */
  lemma UpdateOverallTotal(scores: ScoreMap, cat: string, item: string, v: real, rubric: Rubric)
    requires WellFormed(rubric)
    ensures OverallTotal(UpdateScore(scores, cat, item, v), rubric)
         == OverallTotal(scores, rubric)
            + (if cat in Keys(rubric) && item in Keys(RubricItems(rubric, cat))
               then v - ScoreOf(scores, cat, item) else 0.0)
  {
    var s' := UpdateScore(scores, cat, item, v);
    var d := if item in Keys(RubricItems(rubric, cat)) then v - ScoreOf(scores, cat, item) else 0.0;
    assert DistinctKeys(RubricItems(rubric, cat)) by {
      if cat in Keys(rubric) {
        var p := IndexOf(rubric, cat);
        assert RubricItems(rubric, cat) == rubric[p].value.items;
      }
    }
    UpdateCategoryTotal(scores, cat, item, v, rubric);
    forall c | c in Keys(rubric) && c != cat
      ensures CategoryTotal(c, s', rubric) == CategoryTotal(c, scores, rubric)
    {
      CategoryTotalReadsOnlyRubricItems(c, s', scores, rubric);
    }
    SumOverDelta(Keys(rubric), c => CategoryTotal(c, scores, rubric), c => CategoryTotal(c, s', rubric), cat, d);
  }

  // ---------------------------------------------------------------------
  // The form: both languages side by side

  datatype FormState = FormState(
    koreanScores: ScoreMap,
    englishScores: ScoreMap,
    koreanComment: string,
    englishComment: string,
    isSubmitting: bool,
    koreanSubmitted: bool,
    englishSubmitted: bool)
  {
    function ScoresFor(lang: Language): ScoreMap {
      if lang == Korean then koreanScores else englishScores
    }

    function CommentFor(lang: Language): string {
      if lang == Korean then koreanComment else englishComment
    }

    function SubmittedFor(lang: Language): bool {
      if lang == Korean then koreanSubmitted else englishSubmitted
    }

    /** The submit button of a language tab is enabled. */
    predicate CanSubmit(lang: Language) {
      !isSubmitting && !SubmittedFor(lang)
    }
  }

  /** The form as first rendered. */
  const InitialForm := FormState([], [], "", "", false, false, false)

  /** `updateKoreanScore` / `updateEnglishScore`: one language's sheet takes
      the write, and nothing else on the form changes. */
  function UpdateLanguageScore(st: FormState, lang: Language, cat: string, item: string, v: real): (st': FormState)
    ensures ScoreOf(st'.ScoresFor(lang), cat, item) == v
    ensures forall c, i :: (c != cat || i != item) ==> ScoreOf(st'.ScoresFor(lang), c, i) == ScoreOf(st.ScoresFor(lang), c, i)
    ensures st'.ScoresFor(Other(lang)) == st.ScoresFor(Other(lang))
    ensures st'.(koreanScores := st.koreanScores, englishScores := st.englishScores) == st
  {
    if lang == Korean then st.(koreanScores := UpdateScore(st.koreanScores, cat, item, v))
    else st.(englishScores := UpdateScore(st.englishScores, cat, item, v))
  }

  // ---------------------------------------------------------------------
  // submitEvaluation

  /** The row written to the `evaluations` table. */
  datatype EvaluationRow = EvaluationRow(
    sessionId: string,
    evaluatorId: string,
    language: Language,
    scores: ScoreMap,
    totalScore: real,
    comments: string)

  /** The row built for one language: that language's sheet and comment, and
      its overall total under that language's rubric. */
  function SubmissionRow(st: FormState, lang: Language, sessionId: string, evaluatorId: string, rubrics: Rubrics): (row: EvaluationRow)
    ensures row.language == lang && row.sessionId == sessionId && row.evaluatorId == evaluatorId
    ensures row.scores == st.ScoresFor(lang) && row.comments == st.CommentFor(lang)
    ensures row.totalScore == OverallTotal(st.ScoresFor(lang), rubrics.For(lang))
  {
    var scores := st.ScoresFor(lang);
    EvaluationRow(sessionId, evaluatorId, lang, scores, OverallTotal(scores, rubrics.For(lang)), st.CommentFor(lang))
  }

  /** A sheet filled in through the score selectors yields a submitted total
      between 0 and the rubric's maximum. */
  lemma SubmittedTotalBounds(st: FormState, lang: Language, sessionId: string, evaluatorId: string, rubrics: Rubrics)
    requires WithinRubric(st.ScoresFor(lang), rubrics.For(lang))
    ensures 0.0 <= SubmissionRow(st, lang, sessionId, evaluatorId, rubrics).totalScore <= RubricMax(rubrics.For(lang))
  {
    OverallTotalBounds(st.ScoresFor(lang), rubrics.For(lang));
  }

  /** What a submit produces: the row offered to storage and the form after
      the storage call settled. */
  datatype SubmitOutcome = SubmitOutcome(row: EvaluationRow, after: FormState)

  /** `submitEvaluation(lang)`, with the upsert's failure as a parameter.
      The language's "submitted" flag is raised only when storage reported no
      error; the other language's flag, the sheets and the comments are left
      as they were, and the busy flag is cleared either way. */
  function Submit(st: FormState, lang: Language, sessionId: string, evaluatorId: string, rubrics: Rubrics, upsertFails: bool): (out: SubmitOutcome)
    ensures out.row.totalScore == OverallTotal(st.ScoresFor(lang), rubrics.For(lang))
    ensures out.row.scores == st.ScoresFor(lang) && out.row.language == lang
    ensures out.row.sessionId == sessionId && out.row.evaluatorId == evaluatorId
    ensures out.row.comments == st.CommentFor(lang)
    ensures out.row == SubmissionRow(st, lang, sessionId, evaluatorId, rubrics)
    ensures !out.after.isSubmitting
    ensures out.after.SubmittedFor(lang) <==> st.SubmittedFor(lang) || !upsertFails
    ensures out.after.SubmittedFor(Other(lang)) == st.SubmittedFor(Other(lang))
    ensures out.after.(isSubmitting := st.isSubmitting, koreanSubmitted := st.koreanSubmitted, englishSubmitted := st.englishSubmitted) == st
  {
    var row := SubmissionRow(st, lang, sessionId, evaluatorId, rubrics);
    var busy := st.(isSubmitting := true);
    var settled :=
      if upsertFails then busy
      else if lang == Korean then busy.(koreanSubmitted := true)
      else busy.(englishSubmitted := true);
    SubmitOutcome(row, settled.(isSubmitting := false))
  }

  /** Once a language is submitted its button stays disabled: neither score
      edits nor further submits lower the flag. */
  lemma SubmittedIsSticky(st: FormState, lang: Language, cat: string, item: string, v: real,
                          other: Language, sessionId: string, evaluatorId: string, rubrics: Rubrics, fails: bool)
    requires st.SubmittedFor(lang)
    ensures !UpdateLanguageScore(st, other, cat, item, v).CanSubmit(lang)
    ensures !Submit(st, other, sessionId, evaluatorId, rubrics, fails).after.CanSubmit(lang)
  {
  }
}

=== FILE: session_admin.dfy ===
/** The administrator's session manager: checking an audio upload before it
    is stored, naming the stored file, guarding session creation, and
    switching a session on or off. The storage bucket and the sessions table
    are plain sequences; the clock, the random name part, the new row's id
    and every backend failure are parameters. */
module SessionAdmin {
  import opened Maybe
  import opened Text
  import opened Decimal

  /** Largest accepted upload: 50 MiB. */
  const MaxUploadBytes: nat := 50 * 1024 * 1024

  /** The browser's `File`: its name, MIME type and size in bytes. */
  datatype FileInfo = FileInfo(name: string, mimeType: string, size: nat)

  /** What `handleFileUpload` does with the chosen file. */
  datatype UploadDecision =
    | NoFile
    | NotAudio
    | TooLarge
    | Upload(storedName: string)

  /** `file.name.split(".").pop()`: the last dot-separated piece of the
      name, which is the whole name when it has no dot. It is a suffix of
      the name, holds no dot, and is preceded by a dot unless it is the
      whole name. */
  function Extension(name: string): (ext: string)
    ensures EndsWith(name, ext)
    ensures '.' !in ext
    ensures |ext| < |name| ==> name[|name| - |ext| - 1] == '.'
  {
    var parts := Split(name, '.');
    parts[|parts| - 1]
  }

  /** The three conditions above pin the extension down: no other string
      meets them. */
  lemma ExtensionUnique(name: string, ext: string)
    requires EndsWith(name, ext) && '.' !in ext
    requires |ext| < |name| ==> name[|name| - |ext| - 1] == '.'
    ensures ext == Extension(name)
  {
  }

  /** `${Date.now()}-${random}.${fileExt}`: the clock reading in decimal, a
      dash, the random part, a dot and the extension. */
  function StoredName(name: string, now: nat, randomPart: string): (stored: string)
    ensures EndsWith(stored, "." + Extension(name))
    ensures StartsWith(stored, NatToString(now) + "-")
    ensures |stored| == |NatToString(now)| + 1 + |randomPart| + 1 + |Extension(name)|
    ensures stored[|NatToString(now)| + 1 .. |NatToString(now)| + 1 + |randomPart|] == randomPart
  {
    var head := NatToString(now) + "-";
    var tail := "." + Extension(name);
    Concatenation(randomPart, tail);
    Concatenation(head, randomPart + tail);
    SuffixOfConcatenation(head, randomPart + tail, tail);
    head + (randomPart + tail)
  }

  /** The checks of `handleFileUpload`, in the order it makes them: a file
      must be chosen, its type must start with "audio/", and its size must
      not exceed the limit; only then is a name chosen for storage. */
  function DecideUpload(file: Option<FileInfo>, now: nat, randomPart: string): (d: UploadDecision)
    ensures file.None? ==> d == NoFile
    ensures file.Some? && !StartsWith(file.value.mimeType, "audio/") ==> d == NotAudio
    ensures d.Upload? ==> file.Some? && d.storedName == StoredName(file.value.name, now, randomPart)
  {
    match file
    case None => NoFile
    case Some(f) =>
      if !StartsWith(f.mimeType, "audio/") then NotAudio
      else if f.size > MaxUploadBytes then TooLarge
      else Upload(StoredName(f.name, now, randomPart))
  }

  /** A file is stored exactly when it is an audio file of at most 50 MiB;
      a wrong type is reported as such even when the file is also too
      large. */
  lemma UploadAcceptedIff(file: Option<FileInfo>, now: nat, randomPart: string)
    ensures DecideUpload(file, now, randomPart).Upload? <==>
              file.Some? && StartsWith(file.value.mimeType, "audio/") && file.value.size <= MaxUploadBytes
    ensures DecideUpload(file, now, randomPart).TooLarge? <==>
              file.Some? && StartsWith(file.value.mimeType, "audio/") && file.value.size > MaxUploadBytes
  {
  }

  /** The limit is inclusive: 52,428,800 bytes are accepted, one more byte
      is not. */
  lemma UploadLimitBoundary(name: string, now: nat, randomPart: string)
    ensures DecideUpload(Some(FileInfo(name, "audio/wav", 52428800)), now, randomPart).Upload?
    ensures DecideUpload(Some(FileInfo(name, "audio/wav", 52428801)), now, randomPart) == TooLarge
  {
    assert StartsWith("audio/wav", "audio/");
  }

  /** `handleFileUpload` against the bucket: only an accepted file whose
      upload succeeds adds a name, and it adds exactly the chosen one. */
  function HandleFileUpload(bucket: seq<string>, file: Option<FileInfo>, now: nat, randomPart: string,
                            uploadFails: bool): (r: (UploadDecision, seq<string>))
    ensures r.0 == DecideUpload(file, now, randomPart)
    ensures r.0.Upload? && !uploadFails ==> r.1 == bucket + [r.0.storedName]
    ensures !r.0.Upload? || uploadFails ==> r.1 == bucket
  {
    var d := DecideUpload(file, now, randomPart);
    if d.Upload? && !uploadFails then (d, bucket + [d.storedName]) else (d, bucket)
  }

  // ---------------------------------------------------------------------
  // Creating a session

  /** The row inserted into `evaluation_sessions`. */
  datatype NewSession = NewSession(title: string, audioUrl: string, createdBy: string)

  /** The inputs of the "new session" card. */
  datatype CreateForm = CreateForm(title: string, selectedAudioUrl: string, adminEvaluatorId: Option<string>)

  datatype CreateDecision =
    | MissingInput
    | NoAdmin
    | Insert(row: NewSession)

  /** The guards of `handleCreateSession`: title and audio URL first, then
      the administrator id; only then a row, created by that administrator. */
  function DecideCreate(form: CreateForm): (d: CreateDecision)
    ensures (form.title == "" || form.selectedAudioUrl == "") <==> d == MissingInput
    ensures d == NoAdmin <==> form.title != "" && form.selectedAudioUrl != "" && !Truthy(form.adminEvaluatorId)
    ensures d.Insert? ==> d.row == NewSession(form.title, form.selectedAudioUrl, form.adminEvaluatorId.value)
  {
    if form.title == "" || form.selectedAudioUrl == "" then MissingInput
    else if !Truthy(form.adminEvaluatorId) then NoAdmin
    else Insert(NewSession(form.title, form.selectedAudioUrl, form.adminEvaluatorId.value))
  }

  /** The create button's state: disabled while the title, the audio URL or
      the administrator id is missing. */
  function CreateEnabled(form: CreateForm): bool {
    form.title != "" && form.selectedAudioUrl != "" && Truthy(form.adminEvaluatorId)
  }

  /** The button is enabled exactly when the handler would insert a row. */
  lemma CreateEnabledIffInsert(form: CreateForm)
    ensures CreateEnabled(form) <==> DecideCreate(form).Insert?
  {
  }

  /** `handleCreateSession` against the sessions table: a row is added and
      the form cleared only when the guards pass and the insert succeeds;
      otherwise table and form stay as they were. */
  function HandleCreateSession(table: seq<NewSession>, form: CreateForm, insertFails: bool): (r: (seq<NewSession>, CreateForm))
    ensures DecideCreate(form).Insert? && !insertFails ==>
              r.0 == table + [DecideCreate(form).row] && r.1 == form.(title := "", selectedAudioUrl := "")
    ensures !DecideCreate(form).Insert? || insertFails ==> r == (table, form)
    ensures r.1.adminEvaluatorId == form.adminEvaluatorId
  {
    match DecideCreate(form)
    case Insert(row) =>
      if insertFails then (table, form)
      else (table + [row], form.(title := "", selectedAudioUrl := ""))
    case _ => (table, form)
  }

  /** After a successful create has finished, the button is disabled until a
      new title and file are chosen. Handlers run to completion here: in the
      application the button stays enabled while the insert is awaited, so
      a second click in that window sends the row again. */
  lemma CreateDisablesButton(table: seq<NewSession>, form: CreateForm)
    requires CreateEnabled(form)
    ensures !CreateEnabled(HandleCreateSession(table, form, false).1)
    ensures |HandleCreateSession(table, form, false).0| == |table| + 1
  {
    CreateEnabledIffInsert(form);
  }

  // ---------------------------------------------------------------------
  // Switching a session on or off

  datatype Session = Session(id: string, title: string, audioUrl: Option<string>, isActive: bool, createdAt: string)

  /** `toggleSessionStatus(id, current)`: `update({ is_active: !current })`
      on the rows whose id matches; a failed update changes nothing. */
  function ToggleSessionStatus(sessions: seq<Session>, id: string, current: bool, updateFails: bool): (r: seq<Session>)
    ensures |r| == |sessions|
    ensures forall i :: 0 <= i < |r| && sessions[i].id == id && !updateFails ==>
              r[i] == sessions[i].(isActive := !current)
    ensures forall i :: 0 <= i < |r| && (sessions[i].id != id || updateFails) ==> r[i] == sessions[i]
  {
    if updateFails then sessions
    else seq(|sessions|, i requires 0 <= i < |sessions| =>
           if sessions[i].id == id then sessions[i].(isActive := !current) else sessions[i])
  }

  /** Every row with the given id has the given status. */
  predicate StatusIs(sessions: seq<Session>, id: string, active: bool) {
    forall i :: 0 <= i < |sessions| && sessions[i].id == id ==> sessions[i].isActive == active
  }

  /** Clicking the button twice, each time with the status the list shows,
      restores the table. */
  lemma ToggleTwiceRestores(sessions: seq<Session>, id: string, current: bool)
    requires StatusIs(sessions, id, current)
    ensures StatusIs(ToggleSessionStatus(sessions, id, current, false), id, !current)
    ensures ToggleSessionStatus(ToggleSessionStatus(sessions, id, current, false), id, !current, false) == sessions
  {
    var once := ToggleSessionStatus(sessions, id, current, false);
    var twice := ToggleSessionStatus(once, id, !current, false);
    assert forall i :: 0 <= i < |sessions| ==> twice[i] == sessions[i];
  }
}

=== FILE: text.dfy ===
/** String operations of the JavaScript standard library that the
    application relies on: `startsWith`, `endsWith`, `trim` and `split`. */
module Text {

  /** `s.startsWith(prefix)`. */
  predicate StartsWith(s: string, prefix: string) {
    |prefix| <= |s| && s[..|prefix|] == prefix
  }

  /** `s.endsWith(suffix)`. */
  predicate EndsWith(s: string, suffix: string) {
    |suffix| <= |s| && s[|s| - |suffix|..] == suffix
  }

  /** A concatenation starts with its left part and ends with its right. */
  lemma Concatenation(a: string, b: string)
    ensures StartsWith(a + b, a) && EndsWith(a + b, b)
  {
    assert (a + b)[..|a|] == a;
    assert (a + b)[|a|..] == b;
  }

  /** A suffix of the right part is a suffix of the concatenation. */
  lemma SuffixOfConcatenation(a: string, b: string, t: string)
    requires EndsWith(b, t)
    ensures EndsWith(a + b, t)
  {
    assert (a + b)[|a + b| - |t|..] == b[|b| - |t|..];
  }

  /** The characters `String.prototype.trim` removes: ECMAScript's
      WhiteSpace (TAB, VT, FF, ZWNBSP and every space separator of Unicode
      category Zs) and LineTerminator (LF, CR, LS, PS). */
  predicate IsWhitespace(c: char) {
    var u := c as int;
    u == 0x09 || u == 0x0A || u == 0x0B || u == 0x0C || u == 0x0D
    || u == 0x20 || u == 0xA0 || u == 0x1680
    || (0x2000 <= u <= 0x200A)
    || u == 0x2028 || u == 0x2029 || u == 0x202F || u == 0x205F
    || u == 0x3000 || u == 0xFEFF
  }

  predicate AllWhitespace(s: string) {
    forall i :: 0 <= i < |s| ==> IsWhitespace(s[i])
  }

  /** Positions `lo` up to (not including) `hi` of `s` hold white space. */
  predicate WhitespaceBetween(s: string, lo: int, hi: int) {
    forall i :: lo <= i < hi && 0 <= i < |s| ==> IsWhitespace(s[i])
  }

  /** Number of whitespace characters at the start of `s`. */
  function LeadingSpace(s: string): (n: nat)
    ensures n <= |s|
    ensures WhitespaceBetween(s, 0, n)
    ensures n < |s| ==> !IsWhitespace(s[n])
  {
    if s == [] || !IsWhitespace(s[0]) then 0
    else 1 + LeadingSpace(s[1..])
  }

  /** Number of whitespace characters at the end of `s`. */
  function TrailingSpace(s: string): (n: nat)
    ensures n <= |s|
    ensures WhitespaceBetween(s, |s| - n, |s|)
    ensures n < |s| ==> !IsWhitespace(s[|s| - n - 1])
  {
    if s == [] || !IsWhitespace(s[|s| - 1]) then 0
    else 1 + TrailingSpace(s[..|s| - 1])
  }

  /** `s.trim()`: `s` without its leading and trailing whitespace. */
  function Trim(s: string): (r: string)
    ensures LeadingSpace(s) + |r| <= |s|
    ensures r == s[LeadingSpace(s)..LeadingSpace(s) + |r|]
    ensures WhitespaceBetween(s, 0, LeadingSpace(s))
    ensures WhitespaceBetween(s, LeadingSpace(s) + |r|, |s|)
    ensures r != [] ==> !IsWhitespace(r[0]) && !IsWhitespace(r[|r| - 1])
  {
    var a := LeadingSpace(s);
    var rest := s[a..];
    var b := TrailingSpace(rest);
    assert forall i :: a + (|rest| - b) <= i < |s| ==> s[i] == rest[i - a];
    rest[..|rest| - b]
  }

  /** `trim()` returns the empty string exactly for blank input. */
  lemma TrimEmptyIffBlank(s: string)
    ensures Trim(s) == [] <==> AllWhitespace(s)
  {
  }

  /** Trimming an already trimmed string changes nothing. */
  lemma TrimIdempotent(s: string)
    ensures Trim(Trim(s)) == Trim(s)
  {
    var r := Trim(s);
    if r != [] {
      assert LeadingSpace(r) == 0;
      assert TrailingSpace(r) == 0;
      assert r[0..] == r;
    }
  }

  /** `s.split(sep)` for a one-character separator: the pieces between
      occurrences of `sep`, always at least one. The last piece is the
      longest suffix of `s` free of `sep`. */
  function Split(s: string, sep: char): (parts: seq<string>)
    ensures |parts| >= 1
    ensures forall i :: 0 <= i < |parts| ==> sep !in parts[i]
    ensures EndsWith(s, parts[|parts| - 1])
    ensures |parts[|parts| - 1]| < |s| ==> s[|s| - |parts[|parts| - 1]| - 1] == sep
  {
    if s == [] then [[]]
    else
      var init := Split(s[..|s| - 1], sep);
      var c := s[|s| - 1];
      if c == sep then init + [[]]
      else
        var last := init[|init| - 1] + [c];
        assert s[|s| - |last|..] == s[..|s| - 1][|s| - |last|..|s| - 1] + [c];
        init[..|init| - 1] + [last]
  }

  /** `parts.join([sep])`. */
  function Join(parts: seq<string>, sep: char): string
    requires |parts| >= 1
  {
    if |parts| == 1 then parts[0]
    else Join(parts[..|parts| - 1], sep) + [sep] + parts[|parts| - 1]
  }

  /** A new empty last piece adds one separator. */
  lemma JoinAppendEmpty(parts: seq<string>, sep: char)
    requires |parts| >= 1
    ensures Join(parts + [[]], sep) == Join(parts, sep) + [sep]
  {
    assert (parts + [[]])[..|parts|] == parts;
  }

  /** Growing the last piece by one character grows the join by it. */
  lemma JoinExtendLast(parts: seq<string>, sep: char, c: char)
    requires |parts| >= 1
    ensures Join(parts[..|parts| - 1] + [parts[|parts| - 1] + [c]], sep) == Join(parts, sep) + [c]
  {
    var m := |parts|;
    var grown := parts[..m - 1] + [parts[m - 1] + [c]];
    if m > 1 {
      assert grown[..m - 1] == parts[..m - 1];
    }
  }

  /** Splitting loses nothing: joining the pieces with the separator gives
      back the input string. */
  lemma {:induction false} JoinSplit(s: string, sep: char)
    ensures Join(Split(s, sep), sep) == s
  {
    if s != [] {
      var prefix := s[..|s| - 1];
      var c := s[|s| - 1];
      LastSplitOff(s);
      JoinSplit(prefix, sep);
      var init := Split(prefix, sep);
      if c == sep {
        assert Split(s, sep) == init + [[]];
        JoinAppendEmpty(init, sep);
        assert Join(Split(s, sep), sep) == prefix + [c];
      } else {
        assert Split(s, sep) == init[..|init| - 1] + [init[|init| - 1] + [c]];
        JoinExtendLast(init, sep, c);
        assert Join(Split(s, sep), sep) == prefix + [c];
      }
    }
  }

  /** A non-empty string is its prefix followed by its last character. */
  lemma LastSplitOff(s: string)
    requires s != []
    ensures s == s[..|s| - 1] + [s[|s| - 1]]
  {
  }
}

=== FILE: wav.dfy ===
/** The test-tone exporter's serialiser: a mono 16-bit PCM audio buffer
    written as a RIFF/WAVE file with the canonical 44-byte header, then the
    samples of channel 0 as little-endian two's-complement 16-bit values. */
module Wav {

  type byte = x: int | 0 <= x < 256

  const Two16: nat := 0x1_0000
  const Two32: nat := 0x1_0000_0000

  /** Size of the header; the samples start here. */
  const HeaderSize: nat := 44

  // ---------------------------------------------------------------------
  // Little-endian encodings, as DataView's setters write them

  /** `setUint16(_, v, true)`: `v` reduced modulo 2^16, low byte first. */
  function LE16(v: int): (b: seq<byte>)
    ensures |b| == 2
  {
    var u := v % Two16;
    [u % 256, u / 256]
  }

  /** `setUint32(_, v, true)`: `v` reduced modulo 2^32, low half first. */
  function LE32(v: int): (b: seq<byte>)
    ensures |b| == 4
  {
    var u := v % Two32;
    LE16(u % Two16) + LE16(u / Two16)
  }

  /** The unsigned 16-bit value stored at `off`. */
  function U16At(b: seq<byte>, off: nat): nat
    requires off + 2 <= |b|
  {
    b[off] as int + 256 * b[off + 1] as int
  }

  /** The unsigned 32-bit value stored at `off`. */
  function U32At(b: seq<byte>, off: nat): nat
    requires off + 4 <= |b|
  {
    U16At(b, off) + Two16 * U16At(b, off + 2)
  }

  /** The signed (two's-complement) 16-bit value stored at `off`. */
  function I16At(b: seq<byte>, off: nat): int
    requires off + 2 <= |b|
  {
    var u := U16At(b, off);
    if u < 0x8000 then u else u - Two16
  }

  /** Reading back a 16-bit write gives the value modulo 2^16. */
  lemma DecodeLE16(v: int)
    ensures U16At(LE16(v), 0) == v % Two16
  {
    var u := v % Two16;
    assert u == 256 * (u / 256) + u % 256;
  }

  /** Reading back a 32-bit write gives the value modulo 2^32; in
      particular a sample rate below 2^32 is read back unchanged. */
  lemma DecodeLE32(v: int)
    ensures U32At(LE32(v), 0) == v % Two32
  {
    var u := v % Two32;
    var b := LE32(v);
    DecodeLE16(u % Two16);
    DecodeLE16(u / Two16);
    assert b[..2] == LE16(u % Two16);
    assert b[2..] == LE16(u / Two16);
    assert U16At(b, 0) == U16At(b[..2], 0);
    assert U16At(b, 2) == U16At(b[2..], 0);
    assert u == Two16 * (u / Two16) + u % Two16;
  }

  /** Division by 2^8 undoes the byte split. */
  lemma Split256(lo: int, hi: int)
    requires 0 <= lo < 256 && 0 <= hi
    ensures (lo + 256 * hi) % 256 == lo && (lo + 256 * hi) / 256 == hi
  {
  }

  /** Division by 2^16 undoes the half-word split. */
  lemma Split65536(lo: int, hi: int)
    requires 0 <= lo < Two16 && 0 <= hi
    ensures (lo + Two16 * hi) % Two16 == lo && (lo + Two16 * hi) / Two16 == hi
  {
  }

  /** Any two bytes are the 16-bit encoding of the value they hold. */
  lemma EncodeU16At(b: seq<byte>)
    requires |b| == 2
    ensures LE16(U16At(b, 0)) == b
  {
    EncodeBytePair(b[0], b[1]);
    assert b == [b[0], b[1]];
  }

  /** The 16-bit encoding of `x + 256 * y` is the pair `x, y`. */
  lemma EncodeBytePair(x: byte, y: byte)
    ensures LE16(x + 256 * y) == [x, y]
  {
    var v := x + 256 * y;
    assert v < Two16;
    SmallMod(v, Two16);
    Split256(x, y);
  }

  /** A value already below the modulus is its own remainder. */
  lemma SmallMod(v: int, m: int)
    requires 0 <= v < m
    ensures v % m == v
  {
  }

  /** Any four bytes are the 32-bit encoding of the value they hold, so the
      encoding loses nothing. */
  lemma EncodeU32At(b: seq<byte>)
    requires |b| == 4
    ensures LE32(U32At(b, 0)) == b
  {
    var lo := U16At(b, 0);
    var hi := U16At(b, 2);
    var u := lo + Two16 * hi;
    assert u < Two32;
    Split65536(lo, hi);
    EncodeBytePair(b[0], b[1]);
    EncodeBytePair(b[2], b[3]);
    assert LE32(u) == [b[0], b[1]] + [b[2], b[3]];
    assert b == [b[0], b[1]] + [b[2], b[3]];
  }

  /** Reading back a 16-bit write of a value in the signed range gives the
      value itself. */
  lemma DecodeInt16(v: int)
    requires -0x8000 <= v < 0x8000
    ensures I16At(LE16(v), 0) == v
  {
    DecodeLE16(v);
  }

  // ---------------------------------------------------------------------
  // The buffer being filled

  /** `new ArrayBuffer(n)`: `n` zero bytes. */
  function Zeros(n: nat): (b: seq<byte>)
    ensures |b| == n
  {
    seq(n, _ => 0)
  }

  /** Writing `bytes` at `offset`: those positions take the new bytes and
      every other byte is left as it was. */
  function Store(buf: seq<byte>, offset: nat, bytes: seq<byte>): (out: seq<byte>)
    requires offset + |bytes| <= |buf|
    ensures |out| == |buf|
    ensures forall k :: 0 <= k < |bytes| ==> out[offset + k] == bytes[k]
    ensures forall k :: 0 <= k < |buf| && !(offset <= k < offset + |bytes|) ==> out[k] == buf[k]
  {
    buf[..offset] + bytes + buf[offset + |bytes|..]
  }

  /** The bytes `setUint8(offset + i, s.charCodeAt(i))` writes: each code
      unit reduced modulo 256. */
  function CharBytes(s: string): (b: seq<byte>)
    ensures |b| == |s|
  {
    seq(|s|, i requires 0 <= i < |s| => (s[i] as int) % 256)
  }

  /** `writeString(offset, s)`: character `i` lands at `offset + i`, and
      no other byte is touched. */
  function WriteString(view: seq<byte>, offset: nat, s: string): (out: seq<byte>)
    requires offset + |s| <= |view|
    ensures |out| == |view|
    ensures forall i :: 0 <= i < |s| ==> out[offset + i] == (s[i] as int) % 256
    ensures forall k :: 0 <= k < |view| && !(offset <= k < offset + |s|) ==> out[k] == view[k]
  {
    Store(view, offset, CharBytes(s))
  }

  /** The four-character tag at `off`. */
  predicate TagAt(b: seq<byte>, off: nat, tag: string)
    requires |tag| == 4 && off + 4 <= |b|
  {
    forall i :: 0 <= i < 4 ==> b[off + i] == (tag[i] as int) % 256
  }

  // ---------------------------------------------------------------------
  // The header

  /** The RIFF chunk descriptor (bytes 0-11). */
  predicate RiffDescriptor(b: seq<byte>, length: nat)
    requires |b| >= HeaderSize
  {
    && TagAt(b, 0, "RIFF")
    && U32At(b, 4) == (36 + length * 2) % Two32
    && TagAt(b, 8, "WAVE")
  }

  /** The "fmt " sub-chunk (bytes 12-35): PCM, `channels` channels at
      `sampleRate`, with the byte rate and block alignment of one channel
      of 16-bit samples. */
  predicate FmtChunk(b: seq<byte>, channels: nat, sampleRate: nat)
    requires |b| >= HeaderSize
  {
    && TagAt(b, 12, "fmt ")
    && U32At(b, 16) == 16
    && U16At(b, 20) == 1
    && U16At(b, 22) == channels % Two16
    && U32At(b, 24) == sampleRate % Two32
    && U32At(b, 28) == (sampleRate * 2) % Two32
    && U16At(b, 32) == 2
    && U16At(b, 34) == 16
  }

  /** The "data" sub-chunk header (bytes 36-43). */
  predicate DataHeader(b: seq<byte>, length: nat)
    requires |b| >= HeaderSize
  {
    && TagAt(b, 36, "data")
    && U32At(b, 40) == (length * 2) % Two32
  }

  predicate HeaderFields(b: seq<byte>, channels: nat, sampleRate: nat, length: nat)
    requires |b| >= HeaderSize
  {
    RiffDescriptor(b, length) && FmtChunk(b, channels, sampleRate) && DataHeader(b, length)
  }

  /** The writes at offsets 0, 4 and 8. */
  function WriteRiffDescriptor(view: seq<byte>, length: nat): (out: seq<byte>)
    requires |view| >= HeaderSize
    ensures |out| == |view|
    ensures RiffDescriptor(out, length)
    ensures forall k :: 12 <= k < |view| ==> out[k] == view[k]
  {
    var v1 := WriteString(view, 0, "RIFF");
    var v2 := Store(v1, 4, LE32(36 + length * 2));
    DecodeLE32(36 + length * 2);
    assert U32At(v2, 4) == U32At(LE32(36 + length * 2), 0);
    var v3 := WriteString(v2, 8, "WAVE");
    assert U32At(v3, 4) == U32At(v2, 4);
    v3
  }

  /** The writes at offsets 12 to 34. */
  function WriteFmtChunk(view: seq<byte>, channels: nat, sampleRate: nat): (out: seq<byte>)
    requires |view| >= HeaderSize
    ensures |out| == |view|
    ensures FmtChunk(out, channels, sampleRate)
    ensures forall k :: 0 <= k < |view| && !(12 <= k < 36) ==> out[k] == view[k]
  {
    var v1 := WriteString(view, 12, "fmt ");
    var v2 := Store(v1, 16, LE32(16));
    var v3 := Store(v2, 20, LE16(1));
    var v4 := Store(v3, 22, LE16(channels));
    var v5 := Store(v4, 24, LE32(sampleRate));
    var v6 := Store(v5, 28, LE32(sampleRate * 2));
    var v7 := Store(v6, 32, LE16(2));
    var v8 := Store(v7, 34, LE16(16));
    DecodeLE32(16);
    DecodeLE16(1);
    DecodeLE16(channels);
    DecodeLE32(sampleRate);
    DecodeLE32(sampleRate * 2);
    DecodeLE16(2);
    DecodeLE16(16);
    assert U32At(v8, 16) == U32At(LE32(16), 0);
    assert U16At(v8, 20) == U16At(LE16(1), 0);
    assert U16At(v8, 22) == U16At(LE16(channels), 0);
    assert U32At(v8, 24) == U32At(LE32(sampleRate), 0);
    assert U32At(v8, 28) == U32At(LE32(sampleRate * 2), 0);
    assert U16At(v8, 32) == U16At(LE16(2), 0);
    assert U16At(v8, 34) == U16At(LE16(16), 0);
    v8
  }

  /** The writes at offsets 36 and 40. */
  function WriteDataHeader(view: seq<byte>, length: nat): (out: seq<byte>)
    requires |view| >= HeaderSize
    ensures |out| == |view|
    ensures DataHeader(out, length)
    ensures forall k :: 0 <= k < |view| && !(36 <= k < 44) ==> out[k] == view[k]
  {
    var v1 := WriteString(view, 36, "data");
    var v2 := Store(v1, 40, LE32(length * 2));
    DecodeLE32(length * 2);
    assert U32At(v2, 40) == U32At(LE32(length * 2), 0);
    v2
  }

  /** The header writes in the order the application performs them. */
  function WriteHeader(view: seq<byte>, channels: nat, sampleRate: nat, length: nat): (out: seq<byte>)
    requires |view| >= HeaderSize
    ensures |out| == |view|
    ensures HeaderFields(out, channels, sampleRate, length)
    ensures forall k :: HeaderSize <= k < |view| ==> out[k] == view[k]
  {
    var afterRiff := WriteRiffDescriptor(view, length);
    var afterFmt := WriteFmtChunk(afterRiff, channels, sampleRate);
    var out := WriteDataHeader(afterFmt, length);
    RiffDescriptorFrame(afterRiff, afterFmt, length);
    RiffDescriptorFrame(afterFmt, out, length);
    FmtChunkFrame(afterFmt, out, channels, sampleRate);
    out
  }

  /** The RIFF descriptor reads only bytes 0-11. */
  lemma RiffDescriptorFrame(a: seq<byte>, b: seq<byte>, length: nat)
    requires |a| >= HeaderSize && |b| >= HeaderSize
    requires forall k :: 0 <= k < 12 ==> a[k] == b[k]
    requires RiffDescriptor(a, length)
    ensures RiffDescriptor(b, length)
  {
    assert TagAt(b, 0, "RIFF") && TagAt(b, 8, "WAVE");
    assert U32At(b, 4) == U32At(a, 4);
  }

  /** The fmt sub-chunk reads only bytes 12-35. */
  lemma FmtChunkFrame(a: seq<byte>, b: seq<byte>, channels: nat, sampleRate: nat)
    requires |a| >= HeaderSize && |b| >= HeaderSize
    requires forall k :: 12 <= k < 36 ==> a[k] == b[k]
    requires FmtChunk(a, channels, sampleRate)
    ensures FmtChunk(b, channels, sampleRate)
  {
    assert TagAt(b, 12, "fmt ");
    assert U32At(b, 16) == U32At(a, 16);
    assert U32At(b, 24) == U32At(a, 24);
    assert U32At(b, 28) == U32At(a, 28);
  }

  /** `setInt16(off, v, true)` for a sample in the signed range: reading
      the two bytes back gives `v`, and no other byte changes. */
  function SetInt16(view: seq<byte>, off: nat, v: int): (out: seq<byte>)
    requires off + 2 <= |view|
    requires -0x8000 <= v < 0x8000
    ensures |out| == |view|
    ensures I16At(out, off) == v
    ensures forall k :: 0 <= k < |view| && !(off <= k < off + 2) ==> out[k] == view[k]
  {
    var out := Store(view, off, LE16(v));
    DecodeInt16(v);
    assert I16At(out, off) == I16At(LE16(v), 0);
    out
  }

  /** A 16-bit value stored clear of a write survives it. */
  lemma SampleUntouched(before: seq<byte>, after: seq<byte>, off: nat, at: nat)
    requires |after| == |before| && off + 2 <= |before| && at + 2 <= off
    requires forall k :: 0 <= k < |before| && !(off <= k < off + 2) ==> after[k] == before[k]
    ensures I16At(after, at) == I16At(before, at)
  {
    assert after[at] == before[at] && after[at + 1] == before[at + 1];
  }

  /** The first `n` samples are in place, each clamped. */
  predicate SamplesWritten(view: seq<byte>, samples: seq<int>, n: nat)
    requires n <= |samples| && |view| >= HeaderSize + 2 * n
  {
    forall j :: 0 <= j < n ==> I16At(view, HeaderSize + 2 * j) == Clamp(samples[j])
  }

  /** Writing sample `n` at its place keeps the `n` before it and adds it. */
  lemma NextSampleWritten(view: seq<byte>, next: seq<byte>, samples: seq<int>, n: nat)
    requires n < |samples| && |view| >= HeaderSize + 2 * n + 2
    requires SamplesWritten(view, samples, n)
    requires next == SetInt16(view, HeaderSize + 2 * n, Clamp(samples[n]))
    ensures SamplesWritten(next, samples, n + 1)
  {
    forall j | 0 <= j < n
      ensures I16At(next, HeaderSize + 2 * j) == Clamp(samples[j])
    {
      SampleUntouched(view, next, HeaderSize + 2 * n, HeaderSize + 2 * j);
    }
  }

  /** The header fields read only the first 44 bytes. */
  lemma HeaderFieldsFrame(a: seq<byte>, b: seq<byte>, channels: nat, sampleRate: nat, length: nat)
    requires |a| >= HeaderSize && |b| >= HeaderSize
    requires forall k :: 0 <= k < HeaderSize ==> a[k] == b[k]
    requires HeaderFields(a, channels, sampleRate, length)
    ensures HeaderFields(b, channels, sampleRate, length)
  {
    assert TagAt(b, 0, "RIFF") && TagAt(b, 8, "WAVE");
    assert TagAt(b, 12, "fmt ") && TagAt(b, 36, "data");
  }

  // ---------------------------------------------------------------------
  // audioBufferToWav

  /** An audio buffer: its sample rate and one list of samples per channel.
      Samples are given already scaled to the 16-bit range, so the value the
      application computes as `sample * 0x7fff` for a sample in [-1, 1] is an
      integer here. */
  datatype AudioBuffer = AudioBuffer(sampleRate: nat, channelData: seq<seq<int>>) {
    predicate Valid() {
      |channelData| >= 1
    }

    function NumberOfChannels(): nat {
      |channelData|
    }

    /** Samples per channel. */
    function Length(): nat
      requires Valid()
    {
      |channelData[0]|
    }
  }

  /** `Math.max(-1, Math.min(1, x))` applied before scaling by 0x7fff,
      stated on the scaled value. */
  function Clamp(s: int): (c: int)
    ensures -0x7fff <= c <= 0x7fff
    ensures -0x7fff <= s <= 0x7fff ==> c == s
    ensures s > 0x7fff ==> c == 0x7fff
    ensures s < -0x7fff ==> c == -0x7fff
  {
    if s > 0x7fff then 0x7fff else if s < -0x7fff then -0x7fff else s
  }

  /** `audioBufferToWav(buffer)`: a file of exactly `44 + 2 * length` bytes
      whose header holds the sizes and format as the fields above state and
      whose sample `i` is channel 0's clamped sample `i`, stored as a signed
      little-endian 16-bit value at `44 + 2 * i`. */
  method AudioBufferToWav(buffer: AudioBuffer) returns (wav: seq<byte>)
    requires buffer.Valid()
    ensures |wav| == HeaderSize + 2 * buffer.Length()
    ensures HeaderFields(wav, buffer.NumberOfChannels(), buffer.sampleRate, buffer.Length())
    ensures forall i :: 0 <= i < buffer.Length() ==>
              I16At(wav, HeaderSize + 2 * i) == Clamp(buffer.channelData[0][i])
  {
    var length := buffer.Length();
    var view := Zeros(HeaderSize + length * 2);
    var channels := buffer.NumberOfChannels();
    var sampleRate := buffer.sampleRate;

    view := WriteHeader(view, channels, sampleRate, length);
    var header := view;

    var channelData := buffer.channelData[0];
    var offset := HeaderSize;
    var i := 0;
    while i < length
      invariant 0 <= i <= length
      invariant offset == HeaderSize + 2 * i
      invariant |view| == HeaderSize + 2 * length
      invariant forall k :: 0 <= k < HeaderSize ==> view[k] == header[k]
      invariant SamplesWritten(view, channelData, i)
    {
      var sample := Clamp(channelData[i]);
      var next := SetInt16(view, offset, sample);
      NextSampleWritten(view, next, channelData, i);
      view := next;
      offset := offset + 2;
      i := i + 1;
    }
    HeaderFieldsFrame(header, view, channels, sampleRate, length);
    wav := view;
  }

  // ---------------------------------------------------------------------
  // Properties of the header

  /** The fields agree with one another as the format requires
      (byte rate = sample rate x block align, block align = channels x 2 for
      16-bit samples, 16 bits per sample). */
  predicate Consistent(b: seq<byte>)
    requires |b| >= HeaderSize
  {
    && U32At(b, 28) == U32At(b, 24) * U16At(b, 32)
    && U16At(b, 32) == U16At(b, 22) * 2
    && U16At(b, 34) == 16
  }

  /** The header describes its content correctly exactly when the buffer has
      one channel: byte rate and block alignment are written for mono. */
  lemma ConsistentIffMono(b: seq<byte>, channels: nat, sampleRate: nat, length: nat)
    requires |b| >= HeaderSize
    requires HeaderFields(b, channels, sampleRate, length)
    requires channels < Two16 && sampleRate * 2 < Two32
    ensures Consistent(b) <==> channels == 1
  {
    assert FmtChunk(b, channels, sampleRate);
    SmallMod(channels, Two16);
    SmallMod(sampleRate, Two32);
    SmallMod(sampleRate * 2, Two32);
    MonoRates(U32At(b, 24), U32At(b, 28), U16At(b, 32), U16At(b, 22), sampleRate, channels);
  }

  /** The arithmetic of the fmt fields as `audioBufferToWav` fills them:
      they agree with each other exactly for one channel. */
  lemma MonoRates(rate: int, byteRate: int, align: int, channelField: int, sampleRate: int, channels: int)
    requires rate == sampleRate && byteRate == sampleRate * 2 && align == 2 && channelField == channels
    ensures (byteRate == rate * align && align == channelField * 2) <==> channels == 1
  {
  }

  /** The RIFF size is the file length minus the 8 bytes of the RIFF tag and
      size field, and exceeds the data size by the 36 remaining header bytes,
      as long as the sizes fit the 32-bit fields. */
  lemma SizesAgree(b: seq<byte>, channels: nat, sampleRate: nat, length: nat)
    requires |b| == HeaderSize + 2 * length
    requires HeaderFields(b, channels, sampleRate, length)
    requires 36 + 2 * length < Two32
    ensures |b| == U32At(b, 4) + 8
    ensures U32At(b, 4) == U32At(b, 40) + 36
  {
  }

  /** `generateTestAudio`: a one-channel buffer of ten seconds at the
      context's sample rate, serialised; its header is consistent. */
  method TestToneWav(sampleRate: nat, tone: seq<int>) returns (wav: seq<byte>)
    requires |tone| == 10 * sampleRate
    requires sampleRate * 2 < Two32
    ensures |wav| == HeaderSize + 20 * sampleRate
    ensures Consistent(wav)
  {
    var buffer := AudioBuffer(sampleRate, [tone]);
    wav := AudioBufferToWav(buffer);
    ConsistentIffMono(wav, 1, sampleRate, |tone|);
  }
}
